=== FILE: README.md ===
# BVH construction, traversal and the path tracer's scene queries

This project models the bounding volume hierarchy (BVH) of a small C++ ray
tracer and the scene-level routines built on it:

- **Construction.** The recursive builder makes null for no primitives and a
  leaf for one. For two primitives it makes two singleton leaves. For more it
  sorts by centroid along the widest centroid axis and cuts the list. The cut
  is at the middle (median rule) or at the cheapest of 30 surface-area
  heuristic (SAH) candidates.
- **Traversal.** The nearest-hit traversal prunes on the node box test and
  keeps the nearer child hit, the left one on a tie.
- **Scene.** The scene picks a light with probability proportional to
  emissive area. It scans the object list for the nearest hit, and the path
  tracer's control flow decides which terms enter a radiance estimate.

The model is in Dafny:

| module | file | what it holds |
|---|---|---|
| `Optional` | `optional.dfy` | `Option` |
| `Geometry` | `geometry.dfy` | points, axis-aligned boxes with the empty sentinel, union, centroid, surface area, widest axis |
| `Primitives` | `primitives.dfy` | objects, the intersection record, "nearer of two" and "nearest of many" |
| `BvhSplit` | `bvh_split.dfy` | centroid bounds, the sort, the median and SAH split index, the partition |
| `BvhBuild` | `bvh_build.dfy` | the tree, the recursive builder, the accelerator constructor |
| `BvhTraversal` | `bvh_traversal.dfy` | the recursive query and its agreement with a linear scan |
| `SceneLight` | `scene_light.dfy` | area-weighted light selection |
| `SceneTrace` | `scene_trace.dfy` | the brute-force nearest-object scan |
| `SceneShading` | `scene_shading.dfy` | the scene's BVH setup and the path-tracing recursion skeleton |

A query is about one fixed ray. So the slab test of a box (`boxHit`) and a
primitive's own ray test (`hit`) are function parameters of the traversal.
The main theorem, `BvhTraversal.BvhAgreesWithLinearScan`, assumes only that
these two tests are conservative:

- a box that encloses a box the ray meets is met too;
- a primitive is only hit when its own box is met.

Under that assumption, the tree answers every query at the same nearest
distance as scanning all primitives.

Floating-point NaN in the SAH cost is modelled as `None`. The empty box is
the source's inverted sentinel (corners at plus and minus the largest
double). Its surface area is therefore infinite. So a candidate that leaves
one side empty costs infinity times zero, which is NaN. A zero total area
gives zero times infinity, also NaN. `time < time_max` is false for NaN, so
such a candidate never wins. The model encodes exactly this.

## Model

| member | source | states |
|---|---|---|
| Geometry.Union | Assignment6/BVH.cpp:39 | the union encloses both boxes, keeps boxes well-ordered, and is the empty sentinel only when both arguments are |
| Geometry.UnionAll | Assignment6/BVH.cpp:85-87 | the folded union encloses every box in the list and is well-ordered when they are |
| Geometry.UnionAllLeast | Assignment6/BVH.cpp:85-87 | any box enclosing every element encloses their folded union, so the fold is the least enclosing box |
| Geometry.UnionAllSameElements | Assignment6/BVH.cpp:85-87 | the folded union depends only on which boxes occur, not on their order or multiplicity |
| Geometry.UnionAllAppend | Assignment6/BVH.cpp:100 | folding a concatenation equals the union of the two folds, the step that makes a node's bounds the union over its subtree |
| Geometry.SurfaceArea | Assignment6/BVH.cpp:60-61 | the area of a well-ordered box is non-negative and is zero for a single point |
| Geometry.TwoCubesExample | Assignment6/BVH.cpp:100 | the union of the unit cubes at the origin and at (2,2,2) spans (0,0,0)..(3,3,3) and has surface area 54 |
| Primitives.Closer | Assignment6/BVH.cpp:183-187 | the result is one of the two arguments and no farther than either; it is the second only when the first is strictly farther or they are equal |
| Primitives.NearestIsFirstMinimum | Assignment6/BVH.cpp:181-187 | the nearest-of-many is the first element at the minimum distance (an independent first-minimum definition); it misses exactly when every element misses |
| Primitives.NearestAppend | Assignment6/BVH.cpp:181-187 | the nearest of a concatenation is the nearer of the two parts' nearest results, the first part winning a tie |
| Primitives.NearestSameElements | Assignment6/BVH.cpp:181-187 | two lists holding the same results have nearest results at the same distance |
| Geometry.MaxExtent | Assignment6/BVH.cpp:108 | the chosen axis is one along which the box is longest: axis 0 only when strictly longer than both others, axis 1 when at least as long as x and strictly longer than z, axis 2 otherwise; the empty box gives axis 2 |
| BvhSplit.SplitAxisWidest | Assignment6/BVH.cpp:104-108 | the sort axis is one along which the box of all centroids is widest (axis 2 for an empty list) |
| BvhSplit.CentroidBounds | Assignment6/BVH.cpp:28-42 | the result is well-ordered; it is the empty sentinel exactly when `begin` is not below the end clamped to the list size; it encloses the centroid of every object in the clamped range, and every box that encloses all those centroids encloses it, so it is the least such box |
| BvhSplit.Insert | Assignment6/BVH.cpp:109-128 | inserting into a list sorted on an axis keeps it sorted, adds exactly the new element to the multiset and grows the length by one |
| BvhSplit.SortOn | Assignment6/BVH.cpp:109-128 | the result is sorted by centroid along the axis and is a permutation of the input |
| BvhSplit.CandidateBelowSize | Assignment6/BVH.cpp:57 | each candidate `size * i / 31` for buckets 1..30 lies below `size`, even where the 32-bit product wraps around |
| BvhSplit.SahCost | Assignment6/BVH.cpp:58-65 | a candidate has a (non-NaN) cost only when both halves are non-empty |
| BvhSplit.SahScan | Assignment6/BVH.cpp:52-72 | the scan's best cost is the cost of its index; the index is the start value or a candidate with a cost; the best cost is no larger than the start cost or the cost of any candidate |
| BvhSplit.SahScanFirst | Assignment6/BVH.cpp:66-70 | when the scan moves off its start value, it ends on a candidate whose cost beats the start cost and is strictly below the cost of every earlier candidate, because only a strictly smaller `time` replaces the best so far |
| BvhSplit.FirstWinShift | Assignment6/BVH.cpp:55-71 | a win among the remaining candidates, against the state after the first candidate is tried, is a win one position later among all candidates, against the state before it |
| BvhSplit.CheapestUnique | Assignment6/BVH.cpp:66-70 | at most one index is the first candidate at the least cost, so the rule the scan is proved against fixes the pick, ties included |
| BvhSplit.ScanFromStart | Assignment6/BVH.cpp:52-72 | the scan started from `mid = 1` and `time_max` picks 1 when no candidate has a cost, and otherwise the first candidate at the least cost (a candidate, no costlier than any other, strictly cheaper than every earlier one); it picks inside the list when every costed index is |
| BvhSplit.GetMiddle | Assignment6/BVH.cpp:44-73 | for two or more primitives both halves are non-empty; the median rule returns `size / 2`; the SAH rule returns the scan's pick |
| BvhSplit.Candidates | Assignment6/BVH.cpp:54-57 | the 30 split indices tried for buckets 1..30, in order; for a list of fewer than 2^32 primitives each of them lies below the list size |
| BvhSplit.SahMiddle | Assignment6/BVH.cpp:52-72 | the SAH split index lies in `1 .. size - 1` |
| BvhSplit.SahMiddleIsCheapest | Assignment6/BVH.cpp:52-72 | the SAH split index is 1 when no candidate has a cost; otherwise it is the first of the 30 candidates whose cost is no larger than any other candidate's, an earlier candidate winning a tie |
| BvhSplit.SahFirstCandidateEmptiesLeft | Assignment6/BVH.cpp:57-65 | with fewer than 31 primitives bucket 1 proposes index 0, whose cost is NaN, so it is never chosen |
| BvhSplit.Partition | Assignment6/BVH.cpp:104-138 | both halves are non-empty; their lengths add up to the input's; together they are the sorted list and a permutation of the input; every left key is at most every right key |
| BvhSplit.CutOrdered | Assignment6/BVH.cpp:130-138 | cutting a sorted list gives halves that concatenate back to it and split its multiset, with every left key at most every right key |
| BvhBuild.Build | Assignment6/BVH.cpp:75-147 | the builder returns null exactly for an empty list |
| BvhBuild.BuildSmall | Assignment6/BVH.cpp:77-95 | no primitives build null; one builds a childless leaf holding it with its bounds |
| BvhBuild.BuildInterior | Assignment6/BVH.cpp:96-102 | two or more primitives build a node with two non-null children, no primitive, and the union of the children's bounds, which encloses both |
| BvhBuild.BuildWellFormed | Assignment6/BVH.cpp:75-147 | every built tree satisfies the node invariant: a leaf holds a primitive and its bounds; an interior node has two children and their union as bounds |
| BvhBuild.BuildLeavesPermutation | Assignment6/BVH.cpp:130-141 | the leaves of the built tree are a permutation of the input: every primitive lands in exactly one leaf |
| BvhBuild.WellFormedBounds | Assignment6/BVH.cpp:90-100 | in a well-formed tree each node's bounds equal the union of the bounds of the primitives below it |
| BvhBuild.WellFormedEncloses | Assignment6/BVH.cpp:140-143 | in a well-formed tree each node's bounds enclose every primitive below it |
| BvhBuild.BuildRootBounds | Assignment6/BVH.cpp:84-87 | the root's bounds equal the union of all input primitives' bounds, the value the builder's first loop computes |
| BvhBuild.MedianBuildBalanced | Assignment6/BVH.cpp:47-50 | under the median rule at most 2^h primitives build a tree of height at most h + 1 |
| BvhBuild.MedianStep | Assignment6/BVH.cpp:130-141 | inductive step of the balance bound for three or more primitives |
| BvhBuild.BuildSplits | Assignment6/BVH.cpp:140-141 | for three or more primitives the children are the trees built from the two halves of the partition |
| BvhBuild.MedianHalves | Assignment6/BVH.cpp:130-136 | the median rule cuts `n` primitives into `n / 2` and `n - n / 2` |
| BvhBuild.NewAccel | Assignment6/BVH.cpp:5-15 | the leaf size is capped at 255; the primitive list and split rule are kept; the root is null exactly when there are no primitives; otherwise the root is well-formed and its leaves are a permutation of the input |
| BvhTraversal.GetIntersection | Assignment6/BVH.cpp:158-188 | a hit needs the node's own box test to pass and is the hit of a primitive in some leaf below the node; `TraversalIsNearestReachable` shows which one |
| BvhTraversal.Intersect | Assignment6/BVH.cpp:149-156 | a query on an accelerator without a root reports no hit |
| BvhTraversal.TraversalCases | Assignment6/BVH.cpp:158-188 | a null node, a failed box test and an empty leaf report no hit; an interior node returns the left result unless the right is strictly nearer |
| BvhTraversal.ReachableAreLeaves | Assignment6/BVH.cpp:158-188 | every primitive the traversal can reach is a leaf primitive of the tree |
| BvhTraversal.TraversalIsNearestReachable | Assignment6/BVH.cpp:158-188 | the traversal returns the first nearest hit among the primitives whose every ancestor box passes the test |
| BvhTraversal.PrunedSubtreeMisses | Assignment6/BVH.cpp:166-170 | under a conservative box test, no primitive below a pruned node is hit |
| BvhTraversal.TraversalMatchesLeaves | Assignment6/BVH.cpp:158-188 | under a conservative box test, the traversal of a well-formed tree equals the nearest hit over all its leaves |
| BvhTraversal.BvhAgreesWithLinearScan | Assignment6/BVH.cpp:149-188 | for either split rule, the accelerator's query reports a hit exactly when some primitive is hit; the hit is at the same distance as a linear scan's nearest and is the hit of one of the input primitives |
| SceneLight.EmitAreaBounds | Assignment7/Scene.cpp:20-25 | the emissive total is non-negative when every area is, and zero when no object is emissive |
| SceneLight.EmitAreaAppend | Assignment7/Scene.cpp:20-25 | the emissive total of a concatenation is the sum of the parts' totals, so the running sum can be split anywhere |
| SceneLight.SampleLight | Assignment7/Scene.cpp:18-37 | when an object is chosen, it is emissive, the outputs are its own sample, and it is the first emissive object whose running area sum reaches the scaled draw; otherwise the outputs are untouched and no object reaches the draw |
| SceneLight.PrefixMonotone | Assignment7/Scene.cpp:27-31 | with non-negative areas the running emissive area never decreases |
| SceneLight.SomeEmitterReached | Assignment7/Scene.cpp:26-36 | with non-negative areas, a draw in [0, 1] and at least one emitter, some object is always chosen |
| SceneLight.SelectionInterval | Assignment7/Scene.cpp:28-36 | object `k` is chosen exactly when it is emissive and the scaled draw lies between the running sum before it (exclusive, or from zero when it is the first emitter) and that sum plus its area, so the choice is area-proportional |
| SceneTrace.Trace | Assignment7/Scene.cpp:39-58 | the result is true exactly when some object reports a hit nearer than the incoming `tNear`; `tNear` never grows; nothing changes without a hit; with one, the outputs are those of the first object at the minimum distance |
| SceneShading.CastRay | Assignment7/Scene.cpp:61-140 | the estimate is zero exactly on a miss or a hit without material; otherwise it is shaded at the hit object with its material; the direct term is taken exactly when the light sample is lit; an indirect term only when the roulette survives, the bounce direction is not degenerate, the bounce hits a non-emissive object and the pdf exceeds epsilon, and it is the estimate of the rest of the walk |
| SceneShading.CastRayBlack | Assignment7/Scene.cpp:64-68 | the estimate is zero exactly when the ray misses or hits a surface without material; otherwise it is shaded at the hit object |
| SceneShading.CastRayGuards | Assignment7/Scene.cpp:80-138 | the indirect term is taken exactly when the roulette draw survives, the bounce direction is not degenerate, the bounce hits a non-emissive object and the pdf exceeds epsilon; the direct term exactly when the light point is not degenerate-close and not occluded |
| SceneShading.WalkBounded | Assignment7/Scene.cpp:109-138 | the recursion depth is bounded by the walk's length; it descends past a step only when the roulette draw there survived and the bounce met a non-emissive object; no nested estimate is of an emitter |
| SceneShading.BuildBvh | Assignment7/Scene.cpp:8-11 | the scene's accelerator uses one primitive per leaf and the median rule, keeps the object list, and has a root exactly when there are objects |
| SceneShading.SceneIntersectMatchesScan | Assignment7/Scene.cpp:13-16 | the scene's ray query is at the same distance as a linear scan over its objects, and with at most 2^h objects its tree has height at most h + 1 |
| SceneShading.TraceAgreesWithBvh | Assignment7/Scene.cpp:39-58 | provided each object's own `intersect` reports a hit exactly when its `getIntersection` does and at the same distance, the brute-force object scan started beyond every hit distance finds a hit exactly when the scene's BVH query does, at the BVH query's distance; the object it reports is one of the scene's, hit at that distance, and the index is that object's |

## Left out

- `Bounds3.hpp` (slab test `IntersectP`, `Union`, `Centroid`, `SurfaceArea`, `maxExtent`), the `Object` classes and `global.hpp` are not part of this model. Box operations are written from their standard definitions. The slab test and the per-object ray test are function parameters of the traversal. `EPSILON` is the parameter `eps`.
- Floating point: distances, areas and costs are exact reals. Rounding, overflow to infinity, and `float` against `double` are not modelled. NaN appears only as the `None` SAH cost.
- Hits at a distance of the largest double or beyond are not distinguished from misses in the source. The model treats every `Hit` as strictly nearer than a miss.
- The timing and `printf` in the accelerator constructor and in `Scene::buildBVH`: I/O with no effect on the tree.
- `maxPrimsInNode` is stored (capped at 255) but the builder never reads it; leaves always hold one primitive.
- Null object pointers in the primitive list are not modelled; every list element is an object. The centroid-bounds loop's null check is therefore not represented.
- The SAH split index 0: with fewer than 31 primitives bucket 1 proposes index 0, which would leave the left half empty. Under IEEE arithmetic its cost is NaN, so it never wins (`BvhSplit.SahFirstCandidateEmptiesLeft`). The model therefore always has a split index of at least 1. This relies on the empty box's area being infinite, as the inverted sentinel gives.
- BvhBuild.NewAccel: the constructor returns before assigning `root` when the primitive list is empty (Assignment6/BVH.cpp:12-13), so the root is whatever its declaration in `BVH.hpp` gives it; that header is not part of this model. The model takes that root to be null, as the `if (!root)` test in `Intersect` (Assignment6/BVH.cpp:152) presumes, and states `root` is null exactly when the list is empty.
- SceneShading.BuildBvh: inherits the same reading of the unassigned root for a scene without objects.
- BvhBuild.Build: requires fewer than 2^32 primitives. `getMiddle` stores the list size in an `unsigned` (Assignment6/BVH.cpp:46), so with N >= 2^32 primitives the median rule returns (N mod 2^32) / 2. The right half then keeps at least 2^32 primitives and its residue halves (rounding up) at each level until it is 0 or 1. At that point `middle` is 0, the right half is the whole list again, and `recursiveBuild` (Assignment6/BVH.cpp:130-141) recurses on it forever. The model does not represent this divergence.
- BvhSplit.GetMiddle: requires fewer than 2^32 primitives, for the truncation just described; the SAH candidates `size * i / 31` are computed from the same truncated size.
- SceneLight.SampleLight and SceneTrace.Trace: the source's `uint32_t k` loop counters (Assignment7/Scene.cpp:21, 28, 45) wrap around with 2^32 or more objects, and those loops then never exit. The model's loops run over the whole list and always end.
- SceneShading.TraceAgreesWithBvh: the agreement holds only when each object's older query `intersect(ray, tNear, index)` (the parameter `probe`) reports a hit exactly when its `getIntersection(ray)` (the parameter `hit`) does, at the same distance. These are two separate routines of the object classes, which are not part of this model. `SceneTrace.ProbeOf` builds one such query from `hit`.
- BvhSplit.SortOn: `std::sort` is not stable, so equal centroid keys may come out in any order. The model uses one particular stable order (insertion sort). The proofs about the tree (well-formedness, permutation of leaves, bounds, balance, agreement with a linear scan by distance) use only that the sort returns a sorted permutation of its input. The exact tree shape is the one of the stable order. The model follows the code except for the tie order.
- BvhTraversal.BvhAgreesWithLinearScan: states equality of distance, not of the returned record. Which of several equally near hits is returned depends on the leaf order that the sort produces.
- SceneLight.SampleLight: the uniform draw `get_random_float()` is the parameter `u`. An object's `Sample` is the parameter `sample`. The emissive total is computed in exact reals, not `float`.
- `Scene::sampleLight` with no emissive object (or a draw beyond the total through rounding) samples nothing. `castRay` then uses the default-constructed `inter_light` record (the same record `Intersect` returns for no hit) and a zero pdf. The model keeps the caller's values, and the radiance arithmetic that would divide by that pdf is not modelled.
- Scene::trace: uses the older per-object query (hit flag, distance, sub-primitive index). That query is the parameter `probe`. The ray and texture coordinates are not modelled.
- Scene::castRay: the radiance arithmetic (BRDF evaluation, cosines, emission values, division by pdfs and by the roulette probability) is not modelled. The model describes which terms are added and on which surfaces. The random draws, sampled directions, light samples and intersections along the walk are a sequence parameter.
- SceneShading.WalkBounded: bounds the recursion by the length of the given walk. The expected depth of the Russian roulette (continuation probability 0.8) is a probabilistic statement and is not proved.
- The other files of the repository (rasteriser, Bézier curves, rope simulation, texture lookup, the introductory exercise) are outside the modelled core.

=== FILE: bvh_build.dfy ===
/**
  The BVH tree and its recursive construction. A node either is a leaf (no
  children, one primitive, that primitive's bounds) or an interior node (two
  children, no primitive, the union of the children's bounds).
 */
module BvhBuild {

  import opened Optional
  import opened Geometry
  import opened Primitives
  import opened BvhSplit

  /** A possibly null node pointer. A node with two null children is a leaf. */
  datatype Tree = Null | Node(bounds: Bounds3, left: Tree, right: Tree, prim: Option<Object>)

  predicate IsLeaf(t: Tree) { t.Node? && t.left.Null? && t.right.Null? }

  /** The primitives held by the leaves, left to right. */
  function Leaves(t: Tree): seq<Object>
  {
    match t
    case Null => []
    case Node(_, l, r, obj) =>
      if IsLeaf(t) then (if obj.Some? then [obj.value] else [])
      else Leaves(l) + Leaves(r)
  }

  /** The tree invariant the builder establishes: every leaf holds a primitive
      and that primitive's bounds; every interior node has two children, no
      primitive, and the union of its children's bounds. */
  ghost predicate WellFormed(t: Tree)
  {
    match t
    case Null => true
    case Node(b, l, r, obj) =>
      if IsLeaf(t) then obj.Some? && b == obj.value.Bounds()
      else l.Node? && r.Node? && obj.None? && b == Union(l.bounds, r.bounds) && WellFormed(l) && WellFormed(r)
  }

  /** Builds the tree over `objs`: null for none, a leaf for one, two singleton
      leaves for two, and for more a split of the centroid-sorted list. */
  function Build(objs: seq<Object>, split: SplitMethod): (t: Tree)
    requires |objs| < U32
    decreases |objs|
    ensures t.Null? <==> |objs| == 0
  {
    if |objs| == 0 then Null
    else if |objs| == 1 then Node(objs[0].Bounds(), Null, Null, Some(objs[0]))
    else if |objs| == 2 then
      var l := Build([objs[0]], split);
      var r := Build([objs[1]], split);
      Node(Union(l.bounds, r.bounds), l, r, None)
    else
      var h := Partition(split, objs);
      var l := Build(h.left, split);
      var r := Build(h.right, split);
      Node(Union(l.bounds, r.bounds), l, r, None)
  }

  /** An empty list builds no tree; a single primitive builds a childless leaf
      with that primitive's bounds. */
  lemma BuildSmall(objs: seq<Object>, split: SplitMethod)
    requires |objs| <= 1
    ensures |objs| == 0 ==> Build(objs, split) == Null
    ensures |objs| == 1 ==> Build(objs, split) == Node(objs[0].Bounds(), Null, Null, Some(objs[0]))
    ensures |objs| == 1 ==> Leaves(Build(objs, split)) == objs
  {
  }

  /** Two or more primitives build an interior node whose bounds are the union of
      its two non-null children's bounds, and so enclose both. */
  lemma BuildInterior(objs: seq<Object>, split: SplitMethod)
    requires 2 <= |objs| < U32
    ensures var t := Build(objs, split);
      && t.Node? && t.left.Node? && t.right.Node? && t.prim.None?
      && t.bounds == Union(t.left.bounds, t.right.bounds)
      && Contains(t.bounds, t.left.bounds) && Contains(t.bounds, t.right.bounds)
  {
  }

  /** Every tree the builder returns satisfies the tree invariant. */
  lemma {:induction false} BuildWellFormed(objs: seq<Object>, split: SplitMethod)
    requires |objs| < U32
    ensures WellFormed(Build(objs, split))
    decreases |objs|
  {
    if |objs| == 2 {
      BuildWellFormed([objs[0]], split);
      BuildWellFormed([objs[1]], split);
    } else if |objs| > 2 {
      var h := Partition(split, objs);
      BuildWellFormed(h.left, split);
      BuildWellFormed(h.right, split);
    }
  }

  /** Every input primitive ends up in exactly one leaf, and nothing else does:
      the leaves are a permutation of the input. */
  lemma {:induction false} BuildLeavesPermutation(objs: seq<Object>, split: SplitMethod)
    requires |objs| < U32
    ensures multiset(Leaves(Build(objs, split))) == multiset(objs)
    decreases |objs|
  {
    if |objs| == 2 {
      BuildLeavesPermutation([objs[0]], split);
      BuildLeavesPermutation([objs[1]], split);
      assert objs == [objs[0]] + [objs[1]];
    } else if |objs| > 2 {
      var h := Partition(split, objs);
      var l, r := Build(h.left, split), Build(h.right, split);
      BuildSplits(objs, split);
      assert Leaves(Build(objs, split)) == Leaves(l) + Leaves(r);
      BuildLeavesPermutation(h.left, split);
      BuildLeavesPermutation(h.right, split);
    }
  }

  /** The bounds of each primitive, in order. */
  function BoundsOf(objs: seq<Object>): (bs: seq<Bounds3>)
    ensures |bs| == |objs|
    ensures forall i :: 0 <= i < |objs| ==> bs[i] == objs[i].Bounds()
  {
    seq(|objs|, i requires 0 <= i < |objs| => objs[i].Bounds())
  }

  lemma BoundsOfAppend(a: seq<Object>, b: seq<Object>)
    ensures BoundsOf(a + b) == BoundsOf(a) + BoundsOf(b)
  {
    assert forall i :: 0 <= i < |a| + |b| ==> (a + b)[i] == if i < |a| then a[i] else b[i - |a|];
  }

  /** In a well-formed non-null tree a node's bounds are exactly the union of the
      bounds of the primitives below it. */
  lemma {:induction false} WellFormedBounds(t: Tree)
    requires WellFormed(t) && t.Node?
    ensures t.bounds == UnionAll(BoundsOf(Leaves(t)))
  {
    if !IsLeaf(t) {
      WellFormedBounds(t.left);
      WellFormedBounds(t.right);
      assert Leaves(t) == Leaves(t.left) + Leaves(t.right);
      BoundsOfAppend(Leaves(t.left), Leaves(t.right));
      UnionAllAppend(BoundsOf(Leaves(t.left)), BoundsOf(Leaves(t.right)));
    } else {
      var o := t.prim.value;
      assert BoundsOf(Leaves(t)) == [o.Bounds()];
    }
  }

  /** In a well-formed tree each node's bounds enclose the bounds of every
      primitive below it. */
  lemma WellFormedEncloses(t: Tree)
    requires WellFormed(t) && t.Node?
    ensures forall o :: o in Leaves(t) ==> Contains(t.bounds, o.Bounds())
  {
    WellFormedBounds(t);
    var bs := BoundsOf(Leaves(t));
    forall o | o in Leaves(t)
      ensures Contains(t.bounds, o.Bounds())
    {
      var i :| 0 <= i < |Leaves(t)| && Leaves(t)[i] == o;
      assert bs[i] == o.Bounds();
    }
  }

  /** The root's bounds equal the union of all input primitives' bounds, the
      value the builder's first loop computes (and then leaves unused). */
  lemma {:induction false} BuildRootBounds(objs: seq<Object>, split: SplitMethod)
    requires 1 <= |objs| < U32
    ensures Build(objs, split).bounds == UnionAll(BoundsOf(objs))
  {
    var t := Build(objs, split);
    BuildWellFormed(objs, split);
    BuildLeavesPermutation(objs, split);
    WellFormedBounds(t);
    var a, b := BoundsOf(Leaves(t)), BoundsOf(objs);
    forall x
      ensures x in a <==> x in b
    {
      if x in a {
        var i :| 0 <= i < |a| && a[i] == x;
        assert Leaves(t)[i] in multiset(objs);
        var j :| 0 <= j < |objs| && objs[j] == Leaves(t)[i];
        assert b[j] == x;
      }
      if x in b {
        var j :| 0 <= j < |b| && b[j] == x;
        assert objs[j] in multiset(Leaves(t));
        var i :| 0 <= i < |Leaves(t)| && Leaves(t)[i] == objs[j];
        assert a[i] == x;
      }
    }
    UnionAllSameElements(a, b);
  }

  /** Number of nodes on the longest root-to-leaf path. */
  function Height(t: Tree): nat
  {
    match t
    case Null => 0
    case Node(_, l, r, _) => 1 + (if Height(l) < Height(r) then Height(r) else Height(l))
  }

  function Pow2(n: nat): (p: nat)
    ensures p >= 1
  {
    if n == 0 then 1 else 2 * Pow2(n - 1)
  }

  /** The median split keeps the tree balanced: at most 2^h primitives build a
      tree of height at most h + 1. */
  lemma {:induction false} MedianBuildBalanced(objs: seq<Object>, h: nat)
    requires |objs| < U32 && |objs| <= Pow2(h)
    ensures Height(Build(objs, Naive)) <= h + 1
    decreases |objs|, 1
  {
    if |objs| <= 1 {
      BuildSmall(objs, Naive);
    } else if |objs| == 2 {
      PositiveExponent(|objs|, h);
      PairHeight(objs);
    } else {
      MedianStep(objs, h);
    }
  }

  /** The inductive step of `MedianBuildBalanced`: each half fits in 2^(h-1). */
  lemma {:induction false} MedianStep(objs: seq<Object>, h: nat)
    requires 3 <= |objs| < U32 && |objs| <= Pow2(h)
    ensures Height(Build(objs, Naive)) <= h + 1
    decreases |objs|, 0
  {
    PositiveExponent(|objs|, h);
    var h': nat := h - 1;
    var l, r := MedianChildren(objs);
    HalfFits(|objs|, Pow2(h'));
    MedianBuildBalanced(l, h');
    MedianBuildBalanced(r, h');
    BuildHeightStep(objs, Naive, h);
  }

  /** A node is one level above the taller of the trees built from its halves. */
  lemma BuildHeightStep(objs: seq<Object>, split: SplitMethod, k: nat)
    requires 3 <= |objs| < U32
    ensures Height(Build(Partition(split, objs).left, split)) <= k && Height(Build(Partition(split, objs).right, split)) <= k
            ==> Height(Build(objs, split)) <= k + 1
  {
    var t := Build(objs, split);
    if Height(Build(Partition(split, objs).left, split)) <= k && Height(Build(Partition(split, objs).right, split)) <= k {
      BuildSplits(objs, split);
      HeightOfNode(t, k);
    }
  }

  lemma HeightOfNode(t: Tree, k: nat)
    requires t.Node? && Height(t.left) <= k && Height(t.right) <= k
    ensures Height(t) <= k + 1
  {
  }

  /** A power of two of at least 2 has a positive exponent and halves exactly. */
  lemma PositiveExponent(n: nat, h: nat)
    requires 2 <= n <= Pow2(h)
    ensures h >= 1 && n <= 2 * Pow2(h - 1)
  {
  }

  /** Two primitives build a root over two leaves. */
  lemma PairHeight(objs: seq<Object>)
    requires |objs| == 2
    ensures Height(Build(objs, Naive)) == 2
  {
    var l := Build([objs[0]], Naive);
    var r := Build([objs[1]], Naive);
    BuildSmall([objs[0]], Naive);
    BuildSmall([objs[1]], Naive);
    assert Height(l) == 1 && Height(r) == 1;
    assert Build(objs, Naive) == Node(Union(l.bounds, r.bounds), l, r, None);
  }

  /** The two halves under a median split of three or more primitives. */
  lemma MedianChildren(objs: seq<Object>) returns (l: seq<Object>, r: seq<Object>)
    requires 3 <= |objs| < U32
    ensures |l| == |objs| / 2 && |r| == |objs| - |objs| / 2
    ensures 1 <= |l| < |objs| && 1 <= |r| < |objs|
    ensures l == Partition(Naive, objs).left && r == Partition(Naive, objs).right
  {
    MedianHalves(objs);
    l, r := Partition(Naive, objs).left, Partition(Naive, objs).right;
  }

  lemma HalfFits(n: nat, p: nat)
    requires n <= 2 * p
    ensures n / 2 <= p && n - n / 2 <= p
  {
  }

  /** Three or more primitives build a node whose children are built from the two halves. */
  lemma BuildSplits(objs: seq<Object>, split: SplitMethod)
    requires 3 <= |objs| < U32
    ensures Build(objs, split).Node?
    ensures Build(objs, split).left == Build(Partition(split, objs).left, split)
    ensures Build(objs, split).right == Build(Partition(split, objs).right, split)
  {
  }

  /** The median rule cuts a list of `n` primitives into `n / 2` and `n - n / 2`. */
  lemma MedianHalves(objs: seq<Object>)
    requires 3 <= |objs| < U32
    ensures |Partition(Naive, objs).left| == |objs| / 2
    ensures |Partition(Naive, objs).right| == |objs| - |objs| / 2
  {
    var sorted := SortOn(objs, SplitAxis(objs));
    assert GetMiddle(Naive, sorted) == |objs| / 2;
  }

  /** The accelerator object: the capped leaf size, the split rule, the primitive
      list and the root, which stays null when there are no primitives. */
  datatype Accel = Accel(maxPrimsInNode: int, splitMethod: SplitMethod, primitives: seq<Object>, root: Tree)

  /** The accelerator constructor: caps the leaf size at 255 and builds the tree
      unless the primitive list is empty. */
  function NewAccel(p: seq<Object>, maxPrimsInNode: int, split: SplitMethod): (a: Accel)
    requires |p| < U32
    ensures a.maxPrimsInNode <= 255 && (a.maxPrimsInNode == 255 || a.maxPrimsInNode == maxPrimsInNode)
    ensures maxPrimsInNode <= 255 ==> a.maxPrimsInNode == maxPrimsInNode
    ensures a.primitives == p && a.splitMethod == split
    ensures a.root.Null? <==> |p| == 0
    ensures WellFormed(a.root)
    ensures multiset(Leaves(a.root)) == multiset(p)
  {
    var cap := if 255 < maxPrimsInNode then 255 else maxPrimsInNode;
    if |p| == 0 then Accel(cap, split, p, Null)
    else
      BuildWellFormed(p, split);
      BuildLeavesPermutation(p, split);
      Accel(cap, split, p, Build(p, split))
  }
}

=== FILE: bvh_split.dfy ===
/**
  How the BVH builder splits a list of three or more primitives: the centroid
  bounds, the sort by centroid along the widest axis, and the split index
  chosen by the median rule or by the surface-area heuristic (SAH).
 */
module BvhSplit {

  import opened Optional
  import opened Geometry
  import opened Primitives

  datatype SplitMethod = Naive | Sah

  /** The range of the source's `unsigned` (32-bit) counters. */
  const U32: int := 0x1_0000_0000

  /** Number of SAH buckets; candidates are taken at buckets 1 .. NumBuckets - 1. */
  const NumBuckets: nat := 31

  /** The degenerate boxes of the primitives' centroids. */
  function CentroidPoints(objs: seq<Object>): (ps: seq<Bounds3>)
    ensures |ps| == |objs|
    ensures forall i :: 0 <= i < |objs| ==> ps[i] == Point(objs[i].CentroidPoint())
  {
    seq(|objs|, i requires 0 <= i < |objs| => Point(objs[i].CentroidPoint()))
  }

  /** The clamped end of a range `[begin, end)` over a list of `n` elements. */
  function ClampEnd(end: nat, n: nat): nat { if end < n then end else n }

  /** The union of the centroids of `objs[begin .. min(end, |objs|)]`; the empty
      sentinel when that range holds nothing. */
  function CentroidBounds(objs: seq<Object>, begin: nat, end: nat): (b: Bounds3)
    ensures Valid(b)
    ensures b.Empty? <==> begin >= ClampEnd(end, |objs|)
    ensures forall i :: begin <= i < ClampEnd(end, |objs|) ==> Contains(b, Point(objs[i].CentroidPoint()))
    ensures forall c :: EnclosesCentroids(c, objs, begin, end) ==> Contains(c, b)
  {
    var size := ClampEnd(end, |objs|);
    if begin >= size then Empty
    else
      var ps := CentroidPoints(objs[begin..size]);
      assert forall i :: begin <= i < size ==> ps[i - begin] == Point(objs[i].CentroidPoint());
      assert forall c :: EnclosesCentroids(c, objs, begin, end) ==> Contains(c, UnionAll(ps)) by {
        forall c | EnclosesCentroids(c, objs, begin, end)
          ensures Contains(c, UnionAll(ps))
        {
          assert forall k :: 0 <= k < |ps| ==> ps[k] == Point(objs[begin + k].CentroidPoint());
          UnionAllLeast(ps, c);
        }
      }
      UnionAll(ps)
  }

  /** `c` encloses the centroid of every object of `objs[begin .. min(end, |objs|)]`. */
  ghost predicate EnclosesCentroids(c: Bounds3, objs: seq<Object>, begin: nat, end: nat)
  {
    forall i :: begin <= i < ClampEnd(end, |objs|) ==> Contains(c, Point(objs[i].CentroidPoint()))
  }

  /** The sort key: the centroid coordinate along `axis`. */
  function Key(o: Object, axis: nat): real
  {
    Coord(o.CentroidPoint(), axis)
  }

  /** The axis the builder sorts along: the widest extent of the centroid bounds. */
  function SplitAxis(objs: seq<Object>): (axis: nat)
    ensures axis < 3
  {
    MaxExtent(CentroidBounds(objs, 0, |objs|))
  }

  /** The sort axis is one along which the box of all centroids is widest. */
  lemma SplitAxisWidest(objs: seq<Object>)
    ensures |objs| == 0 ==> SplitAxis(objs) == 2
    ensures |objs| > 0 ==> forall a: nat :: a < 3 ==>
              Extent(CentroidBounds(objs, 0, |objs|), a) <= Extent(CentroidBounds(objs, 0, |objs|), SplitAxis(objs))
  {
  }

  predicate SortedOn(s: seq<Object>, axis: nat)
  {
    forall i, j :: 0 <= i < j < |s| ==> Key(s[i], axis) <= Key(s[j], axis)
  }

  /** Inserts `x` before the first element whose key is not smaller. */
  function Insert(x: Object, s: seq<Object>, axis: nat): (r: seq<Object>)
    requires SortedOn(s, axis)
    ensures SortedOn(r, axis)
    ensures multiset(r) == multiset(s) + multiset{x}
    ensures |r| == |s| + 1
  {
    if |s| == 0 || Key(x, axis) <= Key(s[0], axis) then [x] + s
    else
      var t := Insert(x, s[1..], axis);
      assert s == [s[0]] + s[1..];
      assert multiset(s) == multiset{s[0]} + multiset(s[1..]);
      HeadBelowAll(s[0], t, x, s[1..], axis);
      ConsSorted(s[0], t, axis);
      [s[0]] + t
  }

  /** A key no larger than `x`'s and than every key of `s` is no larger than
      any key of a rearrangement of `s` plus `x`. */
  lemma HeadBelowAll(h: Object, t: seq<Object>, x: Object, s: seq<Object>, axis: nat)
    requires multiset(t) == multiset(s) + multiset{x}
    requires Key(h, axis) <= Key(x, axis)
    requires forall k :: 0 <= k < |s| ==> Key(h, axis) <= Key(s[k], axis)
    ensures forall k :: 0 <= k < |t| ==> Key(h, axis) <= Key(t[k], axis)
  {
    forall k | 0 <= k < |t|
      ensures Key(h, axis) <= Key(t[k], axis)
    {
      assert t[k] in multiset(t);
      if t[k] != x {
        assert t[k] in multiset(s);
        var m :| 0 <= m < |s| && s[m] == t[k];
      }
    }
  }

  /** Putting a key no larger than all of a sorted list's keys in front keeps it sorted. */
  lemma ConsSorted(h: Object, t: seq<Object>, axis: nat)
    requires SortedOn(t, axis)
    requires forall k :: 0 <= k < |t| ==> Key(h, axis) <= Key(t[k], axis)
    ensures SortedOn([h] + t, axis)
  {
    var r := [h] + t;
    forall i, j | 0 <= i < j < |r|
      ensures Key(r[i], axis) <= Key(r[j], axis)
    {
      assert r[j] == t[j - 1];
      if i > 0 {
        assert r[i] == t[i - 1];
      }
    }
  }

  /** Sorts by key along `axis`, keeping the input order of equal keys. */
  function SortOn(s: seq<Object>, axis: nat): (r: seq<Object>)
    ensures SortedOn(r, axis)
    ensures multiset(r) == multiset(s)
    ensures |r| == |s|
  {
    if |s| == 0 then []
    else
      assert s == [s[0]] + s[1..];
      Insert(s[0], SortOn(s[1..], axis), axis)
  }

  /** The SAH candidate for bucket `i`: `size * i / NumBuckets` computed in 32-bit
      unsigned arithmetic, so the product wraps around above 2^32. */
  function Candidate(size: nat, i: nat): nat
  {
    ((size * i) % U32) / NumBuckets
  }

  /** Every candidate, wrapped or not, lies below the list size. */
  lemma CandidateBelowSize(size: nat, i: nat)
    requires 0 < size < U32 && 1 <= i < NumBuckets
    ensures Candidate(size, i) < size
  {
    var p := size * i;
    MulBelow(size, i, NumBuckets);
    if p < U32 {
      assert p % U32 == p;
      DivBelow(p, size);
    } else {
      assert size * 30 >= U32 by { MulMonotone(size, i, 30); }
      var w := p % U32;
      assert w < U32;
      DivBelow(w, 138547333);
    }
  }

  /** `size * i` is below `size * n` when `i` is below `n`. */
  lemma MulBelow(size: nat, i: nat, n: nat)
    requires 0 < size && i < n
    ensures size * i < size * n
  {
  }

  /** `size * i` is at most `size * n` when `i` is. */
  lemma MulMonotone(size: nat, i: nat, n: nat)
    requires i <= n
    ensures size * i <= size * n
  {
  }

  /** Dividing something below `NumBuckets * b` by `NumBuckets` leaves something below `b`. */
  lemma DivBelow(x: nat, b: nat)
    requires x < NumBuckets * b
    ensures x / NumBuckets < b
  {
  }

  /** The SAH cost of splitting the sorted list at `iMid`, or `None` where the
      double arithmetic yields NaN and the candidate never wins: an empty left
      side has the sentinel's infinite area (infinity times zero), and a zero
      total area divides by zero. */
  function SahCost(objs: seq<Object>, iMid: nat): (c: Option<real>)
    ensures c.Some? ==> 0 < iMid < |objs|
  {
    var left := CentroidBounds(objs, 0, iMid);
    var right := CentroidBounds(objs, iMid, |objs|);
    if left.Empty? || right.Empty? then None
    else
      var leftArea := SurfaceArea(left);
      var rightArea := SurfaceArea(right);
      var totalArea := leftArea + rightArea;
      if totalArea == 0.0 then None
      else Some(leftArea / totalArea * (iMid as real) + rightArea / totalArea * ((|objs| - iMid) as real))
  }

  /** The state of the SAH scan: the best index so far and its cost, `None`
      standing for the initial `time_max`. */
  datatype Choice = Choice(mid: nat, time: Option<real>)

  /** Scans the candidate split indices in order, keeping the one with the least
      `cost` (a strictly smaller cost replaces the best so far, so the earlier
      candidate wins a tie; a `None` cost never wins). */
  function SahScan(cands: seq<nat>, cost: nat -> Option<real>, acc: Choice): (r: Choice)
    requires acc.time.Some? ==> acc.time == cost(acc.mid)
    decreases |cands|
    ensures r.time.Some? ==> r.time == cost(r.mid)
    ensures r == acc || (r.mid in cands && r.time.Some?)
    ensures acc.time.Some? ==> r.time.Some? && r.time.value <= acc.time.value
    ensures forall k :: 0 <= k < |cands| && cost(cands[k]).Some? ==>
              r.time.Some? && r.time.value <= cost(cands[k]).value
  {
    if |cands| == 0 then acc
    else
      var time := cost(cands[0]);
      var next := if time.Some? && (acc.time.None? || time.value < acc.time.value) then Choice(cands[0], time) else acc;
      var r := SahScan(cands[1..], cost, next);
      assert forall k :: 1 <= k < |cands| ==> cands[1..][k - 1] == cands[k];
      r
  }

  /** Candidate `k` carries the choice `r`: its cost is `r`'s, beats `bound`, and
      is strictly below that of every earlier candidate with a cost. */
  ghost predicate FirstWin(cands: seq<nat>, cost: nat -> Option<real>, bound: Option<real>, r: Choice, k: int)
  {
    && 0 <= k < |cands| && cands[k] == r.mid
    && r.time.Some? && r.time == cost(cands[k])
    && (bound.None? || r.time.value < bound.value)
    && forall j :: 0 <= j < k && cost(cands[j]).Some? ==> r.time.value < cost(cands[j]).value
  }

  /** A scan that moved off its start value ended on a candidate that beats the
      start cost and every earlier candidate strictly, so a later candidate only
      wins with a strictly smaller cost. */
  lemma {:induction false} SahScanFirst(cands: seq<nat>, cost: nat -> Option<real>, acc: Choice)
    requires acc.time.Some? ==> acc.time == cost(acc.mid)
    decreases |cands|
    ensures SahScan(cands, cost, acc) != acc ==> exists k :: FirstWin(cands, cost, acc.time, SahScan(cands, cost, acc), k)
  {
    if |cands| > 0 {
      var time := cost(cands[0]);
      var next := if time.Some? && (acc.time.None? || time.value < acc.time.value) then Choice(cands[0], time) else acc;
      var r := SahScan(cands[1..], cost, next);
      assert SahScan(cands, cost, acc) == r;
      if r != acc {
        if r == next {
          assert FirstWin(cands, cost, acc.time, r, 0);
        } else {
          SahScanFirst(cands[1..], cost, next);
          var k :| FirstWin(cands[1..], cost, next.time, r, k);
          FirstWinShift(cands, cost, acc, next, r, k);
        }
      }
    }
  }

  /** The step of `SahScanFirst`: a win on the rest of the list, against the
      state after the first candidate, is a win one position later on the
      whole list against the state before it. */
  lemma FirstWinShift(cands: seq<nat>, cost: nat -> Option<real>, acc: Choice, next: Choice, r: Choice, k: int)
    requires |cands| > 0
    requires next == if cost(cands[0]).Some? && (acc.time.None? || cost(cands[0]).value < acc.time.value)
                     then Choice(cands[0], cost(cands[0])) else acc
    requires acc.time.Some? ==> acc.time == cost(acc.mid)
    requires FirstWin(cands[1..], cost, next.time, r, k)
    ensures FirstWin(cands, cost, acc.time, r, k + 1)
  {
  }

  /** `m` is what the SAH rule picks among the candidates: the initial 1 when no
      candidate has a cost, and otherwise the first candidate at the least cost. */
  ghost predicate Cheapest(cands: seq<nat>, cost: nat -> Option<real>, m: nat)
  {
    if forall k :: 0 <= k < |cands| ==> cost(cands[k]).None? then m == 1
    else exists k :: && 0 <= k < |cands| && cands[k] == m && cost(m).Some?
                     && (forall j :: 0 <= j < |cands| && cost(cands[j]).Some? ==> cost(m).value <= cost(cands[j]).value)
                     && (forall j :: 0 <= j < k && cost(cands[j]).Some? ==> cost(m).value < cost(cands[j]).value)
  }

  /** `Cheapest` fixes the pick: ties between candidates at the least cost go
      to the earliest, so no two different indices satisfy it. */
  lemma CheapestUnique(cands: seq<nat>, cost: nat -> Option<real>, m1: nat, m2: nat)
    requires Cheapest(cands, cost, m1) && Cheapest(cands, cost, m2)
    ensures m1 == m2
  {
  }

  /** The scan started from `time_max` picks the first cheapest candidate, and when
      every index with a cost lies strictly inside the list its pick does too. */
  lemma ScanFromStart(size: nat, cands: seq<nat>, cost: nat -> Option<real>)
    ensures Cheapest(cands, cost, SahScan(cands, cost, Choice(1, None)).mid)
    ensures 1 < size && (forall j: nat :: cost(j).Some? ==> 0 < j < size) ==>
              0 < SahScan(cands, cost, Choice(1, None)).mid < size
  {
    var r := SahScan(cands, cost, Choice(1, None));
    SahScanFirst(cands, cost, Choice(1, None));
    if r.time.None? {
      assert r == Choice(1, None);
    }
  }

  /** The split index of a list of at least two primitives. The median rule takes
      the middle; SAH takes the cheapest candidate (see `SahMiddleIsCheapest`).
      Either way both halves are non-empty. */
  function GetMiddle(split: SplitMethod, objs: seq<Object>): (m: nat)
    requires 2 <= |objs| < U32
    ensures 1 <= m < |objs|
    ensures split == Naive ==> m == |objs| / 2
    ensures split == Sah ==> m == SahMiddle(objs)
  {
    if split == Naive then |objs| / 2 else SahMiddle(objs)
  }

  /** The candidate split indices of buckets 1 to 30, in the order they are tried. */
  function Candidates(size: nat): (cands: seq<nat>)
    ensures |cands| == NumBuckets - 1
    ensures forall k :: 0 <= k < |cands| ==> cands[k] == Candidate(size, k + 1)
    ensures 0 < size < U32 ==> forall k :: 0 <= k < |cands| ==> cands[k] < size
  {
    var cands := seq(NumBuckets - 1, k requires 0 <= k => Candidate(size, k + 1));
    assert 0 < size < U32 ==> forall k :: 0 <= k < |cands| ==> cands[k] < size by {
      if 0 < size < U32 {
        forall k | 0 <= k < |cands|
          ensures cands[k] < size
        {
          CandidateBelowSize(size, k + 1);
        }
      }
    }
    cands
  }

  /** The cost the SAH scan compares, as a function of the split index. */
  function SahCostOf(objs: seq<Object>): (cost: nat -> Option<real>)
    ensures forall j: nat :: cost(j) == SahCost(objs, j)
    ensures forall j: nat :: cost(j).Some? ==> 0 < j < |objs|
  {
    (iMid: nat) => SahCost(objs, iMid)
  }

  /** The SAH split index: the result of the scan over the 30 candidates. */
  function SahMiddle(objs: seq<Object>): (m: nat)
    requires 2 <= |objs| < U32
    ensures 1 <= m < |objs|
  {
    ScanFromStart(|objs|, Candidates(|objs|), SahCostOf(objs));
    SahScan(Candidates(|objs|), SahCostOf(objs), Choice(1, None)).mid
  }

  /** The SAH split index is a candidate `size * i / 31` of least `SahCost`, and
      1 when no candidate has a cost. */
  lemma SahMiddleIsCheapest(objs: seq<Object>)
    requires 2 <= |objs| < U32
    ensures Cheapest(Candidates(|objs|), SahCostOf(objs), SahMiddle(objs))
  {
    ScanFromStart(|objs|, Candidates(|objs|), SahCostOf(objs));
  }

  /** With fewer than 31 primitives the first SAH candidate is index 0, which
      would leave the left half empty; its cost is NaN, so it is never chosen. */
  lemma SahFirstCandidateEmptiesLeft(objs: seq<Object>)
    requires 1 <= |objs| < NumBuckets
    ensures Candidate(|objs|, 1) == 0
    ensures SahCost(objs, 0).None?
  {
  }

  /** The two halves a list of three or more primitives is split into. */
  datatype Halves = Halves(left: seq<Object>, right: seq<Object>)

  /** Sorts by centroid along the split axis and cuts at `GetMiddle`. */
  function Partition(split: SplitMethod, objs: seq<Object>): (h: Halves)
    requires 3 <= |objs| < U32
    ensures 1 <= |h.left| && 1 <= |h.right|
    ensures |h.left| + |h.right| == |objs|
    ensures h.left + h.right == SortOn(objs, SplitAxis(objs))
    ensures multiset(h.left) + multiset(h.right) == multiset(objs)
    ensures forall a, b :: a in h.left && b in h.right ==> Key(a, SplitAxis(objs)) <= Key(b, SplitAxis(objs))
  {
    var axis := SplitAxis(objs);
    var sorted := SortOn(objs, axis);
    var middle := GetMiddle(split, sorted);
    CutOrdered(sorted, middle, axis);
    Halves(sorted[..middle], sorted[middle..])
  }

  /** Cutting a sorted list leaves every key on the left no larger than every key on the right. */
  lemma CutOrdered(s: seq<Object>, middle: nat, axis: nat)
    requires SortedOn(s, axis) && middle <= |s|
    ensures s[..middle] + s[middle..] == s
    ensures multiset(s[..middle]) + multiset(s[middle..]) == multiset(s)
    ensures forall a, b :: a in s[..middle] && b in s[middle..] ==> Key(a, axis) <= Key(b, axis)
  {
    assert s[..middle] + s[middle..] == s;
    forall a, b | a in s[..middle] && b in s[middle..]
      ensures Key(a, axis) <= Key(b, axis)
    {
      var i :| 0 <= i < middle && s[..middle][i] == a;
      var j :| 0 <= j < |s| - middle && s[middle..][j] == b;
      assert s[i] == a && s[middle + j] == b;
    }
  }
}

=== FILE: bvh_traversal.dfy ===
/**
  The nearest-hit query over a BVH. The ray is fixed for a query, so the slab
  test of a node's bounds (`boxHit`) and a primitive's own ray test (`hit`)
  are functions of the box and of the primitive alone.
 */
module BvhTraversal {

  import opened Optional
  import opened Geometry
  import opened Primitives
  import opened BvhSplit
  import opened BvhBuild

  /** Recursive descent: a null node or a failed box test gives no hit; a leaf
      delegates to its primitive (no hit when it has none); an interior node
      queries both children and keeps the nearer result, the left on a tie. */
  function GetIntersection(node: Tree, boxHit: Bounds3 -> bool, hit: Object -> Intersection): (r: Intersection)
    ensures r.Hit? ==> node.Node? && boxHit(node.bounds)
    ensures r.Hit? ==> exists o :: o in Leaves(node) && r == hit(o)
  {
    match node
    case Null => NoHit
    case Node(b, l, r, prim) =>
      if !boxHit(b) then NoHit
      else if IsLeaf(node) then (if prim.None? then NoHit else hit(prim.value))
      else Closer(GetIntersection(l, boxHit, hit), GetIntersection(r, boxHit, hit))
  }

  /** The accelerator's query: no hit without a root, otherwise the traversal. */
  function Intersect(a: Accel, boxHit: Bounds3 -> bool, hit: Object -> Intersection): (r: Intersection)
    ensures a.root.Null? ==> r.NoHit?
  {
    if a.root.Null? then NoHit else GetIntersection(a.root, boxHit, hit)
  }

  /** The primitives of the leaves whose box test passes on every node from the
      root down to the leaf, left to right. */
  function Reachable(t: Tree, boxHit: Bounds3 -> bool): seq<Object>
  {
    match t
    case Null => []
    case Node(b, l, r, prim) =>
      if !boxHit(b) then []
      else if IsLeaf(t) then (if prim.Some? then [prim.value] else [])
      else Reachable(l, boxHit) + Reachable(r, boxHit)
  }

  /** The three ways a query reports no hit, and the tie rule at an interior node. */
  lemma TraversalCases(t: Tree, boxHit: Bounds3 -> bool, hit: Object -> Intersection)
    ensures t.Null? ==> GetIntersection(t, boxHit, hit).NoHit?
    ensures t.Node? && !boxHit(t.bounds) ==> GetIntersection(t, boxHit, hit).NoHit?
    ensures IsLeaf(t) && t.prim.None? ==> GetIntersection(t, boxHit, hit).NoHit?
    ensures t.Node? && boxHit(t.bounds) && !IsLeaf(t) ==>
      var h1, h2 := GetIntersection(t.left, boxHit, hit), GetIntersection(t.right, boxHit, hit);
      GetIntersection(t, boxHit, hit) == (if NoFarther(h1, h2) then h1 else h2)
  {
  }

  /** Reachable primitives are leaf primitives. */
  lemma {:induction false} ReachableAreLeaves(t: Tree, boxHit: Bounds3 -> bool)
    ensures forall o :: o in Reachable(t, boxHit) ==> o in Leaves(t)
  {
    if t.Node? && boxHit(t.bounds) && !IsLeaf(t) {
      ReachableAreLeaves(t.left, boxHit);
      ReachableAreLeaves(t.right, boxHit);
    }
  }

  /** The traversal returns the nearest hit among the reachable leaves' primitives,
      the leftmost on a tie. */
  lemma {:induction false} TraversalIsNearestReachable(t: Tree, boxHit: Bounds3 -> bool, hit: Object -> Intersection)
    ensures GetIntersection(t, boxHit, hit) == Nearest(HitsOf(Reachable(t, boxHit), hit))
  {
    match t
    case Null =>
    case Node(b, l, r, prim) =>
      if !boxHit(b) {
      } else if IsLeaf(t) {
        if prim.Some? {
          assert HitsOf(Reachable(t, boxHit), hit) == [hit(prim.value)];
          assert Nearest([hit(prim.value)]) == Closer(hit(prim.value), Nearest([]));
        }
      } else {
        TraversalIsNearestReachable(l, boxHit, hit);
        TraversalIsNearestReachable(r, boxHit, hit);
        HitsOfAppend(Reachable(l, boxHit), Reachable(r, boxHit), hit);
        NearestAppend(HitsOf(Reachable(l, boxHit), hit), HitsOf(Reachable(r, boxHit), hit));
      }
  }

  /** What the pruning needs of the two geometric tests: a box enclosing one
      that the ray meets is met too, and a primitive is only hit when its own
      box is met. */
  ghost predicate Conservative(boxHit: Bounds3 -> bool, hit: Object -> Intersection)
  {
    && (forall a, b :: Contains(a, b) && boxHit(b) ==> boxHit(a))
    && (forall o :: hit(o).Hit? ==> boxHit(o.Bounds()))
  }

  /** Under a conservative box test, no primitive below a pruned node is hit. */
  lemma PrunedSubtreeMisses(t: Tree, boxHit: Bounds3 -> bool, hit: Object -> Intersection)
    requires Conservative(boxHit, hit) && WellFormed(t) && t.Node? && !boxHit(t.bounds)
    ensures forall o :: o in Leaves(t) ==> hit(o).NoHit?
  {
    WellFormedEncloses(t);
  }

  /** Under a conservative box test, pruning loses nothing: the traversal of a
      well-formed tree returns the nearest hit among all its leaves' primitives. */
  lemma {:induction false} TraversalMatchesLeaves(t: Tree, boxHit: Bounds3 -> bool, hit: Object -> Intersection)
    requires Conservative(boxHit, hit) && WellFormed(t)
    ensures GetIntersection(t, boxHit, hit) == Nearest(HitsOf(Leaves(t), hit))
  {
    match t
    case Null =>
    case Node(b, l, r, prim) =>
      var hs := HitsOf(Leaves(t), hit);
      if !boxHit(b) {
        PrunedSubtreeMisses(t, boxHit, hit);
        NearestIsFirstMinimum(hs);
        assert forall i :: 0 <= i < |hs| ==> hs[i].NoHit? by {
          forall i | 0 <= i < |hs|
            ensures hs[i].NoHit?
          {
            assert Leaves(t)[i] in Leaves(t);
          }
        }
      } else if IsLeaf(t) {
        assert hs == [hit(prim.value)];
        assert Nearest([hit(prim.value)]) == Closer(hit(prim.value), Nearest([]));
      } else {
        TraversalMatchesLeaves(l, boxHit, hit);
        TraversalMatchesLeaves(r, boxHit, hit);
        HitsOfAppend(Leaves(l), Leaves(r), hit);
        NearestAppend(HitsOf(Leaves(l), hit), HitsOf(Leaves(r), hit));
      }
  }

  /** Traversal correctness: the accelerator built over `objs` (either split
      rule) finds a hit exactly when some primitive is hit, at the same nearest
      distance as a linear scan over `objs`, and what it returns is the hit of
      one of the primitives. */
  lemma {:induction false} BvhAgreesWithLinearScan(objs: seq<Object>, maxPrimsInNode: int, split: SplitMethod,
                                boxHit: Bounds3 -> bool, hit: Object -> Intersection)
    requires |objs| < U32 && Conservative(boxHit, hit)
    ensures var r := Intersect(NewAccel(objs, maxPrimsInNode, split), boxHit, hit);
      && SameDistance(r, Nearest(HitsOf(objs, hit)))
      && (r.NoHit? <==> forall i :: 0 <= i < |objs| ==> hit(objs[i]).NoHit?)
      && (r.Hit? ==> exists i :: 0 <= i < |objs| && r == hit(objs[i]))
  {
    var a := NewAccel(objs, maxPrimsInNode, split);
    var leaves := Leaves(a.root);
    TraversalMatchesLeaves(a.root, boxHit, hit);
    assert Intersect(a, boxHit, hit) == Nearest(HitsOf(leaves, hit));
    forall o
      ensures o in leaves <==> o in objs
    {
      assert o in leaves <==> o in multiset(leaves);
      assert o in objs <==> o in multiset(objs);
    }
    HitsOfSameElements(leaves, objs, hit);
    NearestSameElements(HitsOf(leaves, hit), HitsOf(objs, hit));
    NearestIsFirstMinimum(HitsOf(objs, hit));
    NearestIsFirstMinimum(HitsOf(leaves, hit));
    var r := Intersect(a, boxHit, hit);
    if r.Hit? {
      var k :| 0 <= k < |leaves| && HitsOf(leaves, hit)[k] == r;
      assert leaves[k] in objs;
      var i :| 0 <= i < |objs| && objs[i] == leaves[k];
      assert r == hit(objs[i]);
    }
  }
}

=== FILE: geometry.dfy ===
/**
  Axis-aligned bounding boxes over real coordinates: the part of `Bounds3`
  that the BVH builder relies on (union, containment, centroid, surface area,
  axis of largest extent).
 */
module Geometry {

  datatype Vec3 = Vec3(x: real, y: real, z: real)

  /** `Empty` is the inverted sentinel box a default-constructed `Bounds3` holds
      (minimum corner at +max, maximum corner at -max): it is the identity of
      `Union`, and every box contains it. */
  datatype Bounds3 = Empty | Box(pMin: Vec3, pMax: Vec3)

  function Min(a: real, b: real): real { if a < b then a else b }

  function Max(a: real, b: real): real { if a > b then a else b }

  function MinV(a: Vec3, b: Vec3): Vec3 { Vec3(Min(a.x, b.x), Min(a.y, b.y), Min(a.z, b.z)) }

  function MaxV(a: Vec3, b: Vec3): Vec3 { Vec3(Max(a.x, b.x), Max(a.y, b.y), Max(a.z, b.z)) }

  /** Componentwise `<=`. */
  predicate LeV(a: Vec3, b: Vec3) { a.x <= b.x && a.y <= b.y && a.z <= b.z }

  /** A box is well formed when its corners are ordered on every axis. */
  predicate Valid(b: Bounds3) { b.Box? ==> LeV(b.pMin, b.pMax) }

  /** `outer` encloses every point of `inner`. */
  predicate Contains(outer: Bounds3, inner: Bounds3)
  {
    inner.Empty? || (outer.Box? && LeV(outer.pMin, inner.pMin) && LeV(inner.pMax, outer.pMax))
  }

  /** The degenerate box holding one point (`Union(Bounds3, Vector3f)` adds a point this way). */
  function Point(p: Vec3): (b: Bounds3)
    ensures Valid(b) && b.Box?
  {
    Box(p, p)
  }

  /** The smallest box enclosing both arguments. */
  function Union(a: Bounds3, b: Bounds3): (r: Bounds3)
    ensures Contains(r, a) && Contains(r, b)
    ensures Valid(a) && Valid(b) ==> Valid(r)
    ensures r.Empty? <==> a.Empty? && b.Empty?
  {
    match (a, b)
    case (Empty, _) => b
    case (_, Empty) => a
    case (Box(lo1, hi1), Box(lo2, hi2)) => Box(MinV(lo1, lo2), MaxV(hi1, hi2))
  }

  /** The midpoint of a box's corners. */
  function Centroid(lo: Vec3, hi: Vec3): (c: Vec3)
    ensures LeV(lo, hi) ==> LeV(lo, c) && LeV(c, hi)
  {
    Vec3(0.5 * lo.x + 0.5 * hi.x, 0.5 * lo.y + 0.5 * hi.y, 0.5 * lo.z + 0.5 * hi.z)
  }

  /** `2 * (dx*dy + dx*dz + dy*dz)` of a non-empty box. The empty sentinel's
      area is infinite and has no real value; callers treat it separately. */
  function SurfaceArea(b: Bounds3): (a: real)
    requires b.Box?
    ensures Valid(b) ==> a >= 0.0
    ensures Valid(b) && b.pMin == b.pMax ==> a == 0.0
  {
    var dx := b.pMax.x - b.pMin.x;
    var dy := b.pMax.y - b.pMin.y;
    var dz := b.pMax.z - b.pMin.z;
    assert Valid(b) ==> dx >= 0.0 && dy >= 0.0 && dz >= 0.0 && dx * dy >= 0.0 && dx * dz >= 0.0 && dy * dz >= 0.0;
    2.0 * (dx * dy + dx * dz + dy * dz)
  }

  /** The axis (0 = x, 1 = y, 2 = z) along which the box is widest: x only when
      strictly wider than both others, otherwise y when strictly wider than z,
      otherwise z. On the empty sentinel every extent is -infinity, every
      comparison fails and the answer is z. */
  function MaxExtent(b: Bounds3): (axis: nat)
    ensures axis < 3
    ensures b.Empty? ==> axis == 2
    ensures b.Box? && axis == 0 ==> Extent(b, 0) > Extent(b, 1) && Extent(b, 0) > Extent(b, 2)
    ensures b.Box? && axis == 1 ==> Extent(b, 1) >= Extent(b, 0) && Extent(b, 1) > Extent(b, 2)
    ensures b.Box? && axis == 2 ==> Extent(b, 2) >= Extent(b, 0) && Extent(b, 2) >= Extent(b, 1)
  {
    match b
    case Empty => 2
    case Box(lo, hi) =>
      var d := Vec3(hi.x - lo.x, hi.y - lo.y, hi.z - lo.z);
      if d.x > d.y && d.x > d.z then 0
      else if d.y > d.z then 1
      else 2
  }

  /** The side length of a non-empty box along the given axis. */
  function Extent(b: Bounds3, axis: nat): real
    requires b.Box?
  {
    Coord(b.pMax, axis) - Coord(b.pMin, axis)
  }

  /** The coordinate of `v` on the given axis. */
  function Coord(v: Vec3, axis: nat): real
  {
    if axis == 0 then v.x else if axis == 1 then v.y else v.z
  }

  /** Union is commutative. */
  lemma UnionCommutes(a: Bounds3, b: Bounds3)
    ensures Union(a, b) == Union(b, a)
  {
  }

  /** Union is associative. */
  lemma UnionAssociates(a: Bounds3, b: Bounds3, c: Bounds3)
    ensures Union(Union(a, b), c) == Union(a, Union(b, c))
  {
  }

  /** Union is idempotent and has the empty sentinel as identity. */
  lemma UnionIdempotent(b: Bounds3)
    ensures Union(b, b) == b
    ensures Union(Empty, b) == b && Union(b, Empty) == b
  {
  }

  /** Every box enclosing both arguments encloses their union: the union is the least upper bound. */
  lemma UnionLeast(a: Bounds3, b: Bounds3, c: Bounds3)
    requires Contains(c, a) && Contains(c, b)
    ensures Contains(c, Union(a, b))
  {
  }

  lemma ContainsTransitive(a: Bounds3, b: Bounds3, c: Bounds3)
    requires Contains(a, b) && Contains(b, c)
    ensures Contains(a, c)
  {
  }

  /** Containment is antisymmetric: two boxes enclosing each other are the same box. */
  lemma ContainsAntisymmetric(a: Bounds3, b: Bounds3)
    requires Contains(a, b) && Contains(b, a)
    ensures a == b
  {
  }

  /** The union of a sequence of boxes, in the order the builder's loop folds them. */
  function UnionAll(bs: seq<Bounds3>): (r: Bounds3)
    ensures forall i :: 0 <= i < |bs| ==> Contains(r, bs[i])
    ensures (forall i :: 0 <= i < |bs| ==> Valid(bs[i])) ==> Valid(r)
  {
    if |bs| == 0 then Empty else Union(bs[0], UnionAll(bs[1..]))
  }

  /** Any box that encloses every element encloses their union. */
  lemma {:induction false} UnionAllLeast(bs: seq<Bounds3>, c: Bounds3)
    requires forall i :: 0 <= i < |bs| ==> Contains(c, bs[i])
    ensures Contains(c, UnionAll(bs))
  {
    if |bs| > 0 {
      assert forall i :: 0 <= i < |bs| - 1 ==> bs[1..][i] == bs[i + 1];
      UnionAllLeast(bs[1..], c);
      UnionLeast(bs[0], UnionAll(bs[1..]), c);
    }
  }

  /** The union of a sequence depends only on which boxes it holds, not on their
      order or multiplicity. */
  lemma UnionAllSameElements(a: seq<Bounds3>, b: seq<Bounds3>)
    requires forall x :: x in a <==> x in b
    ensures UnionAll(a) == UnionAll(b)
  {
    forall i | 0 <= i < |b|
      ensures Contains(UnionAll(a), b[i])
    {
      assert b[i] in a;
      var j :| 0 <= j < |a| && a[j] == b[i];
    }
    forall i | 0 <= i < |a|
      ensures Contains(UnionAll(b), a[i])
    {
      assert a[i] in b;
      var j :| 0 <= j < |b| && b[j] == a[i];
    }
    UnionAllLeast(b, UnionAll(a));
    UnionAllLeast(a, UnionAll(b));
    ContainsAntisymmetric(UnionAll(a), UnionAll(b));
  }

  /** Folding a concatenation is the union of the two folds. */
  lemma {:induction false} UnionAllAppend(a: seq<Bounds3>, b: seq<Bounds3>)
    ensures UnionAll(a + b) == Union(UnionAll(a), UnionAll(b))
  {
    var u := Union(UnionAll(a), UnionAll(b));
    forall i | 0 <= i < |a + b|
      ensures Contains(u, (a + b)[i])
    {
      if i < |a| {
        ContainsTransitive(u, UnionAll(a), a[i]);
      } else {
        ContainsTransitive(u, UnionAll(b), b[i - |a|]);
      }
    }
    UnionAllLeast(a + b, u);
    forall i | 0 <= i < |a|
      ensures Contains(UnionAll(a + b), a[i])
    {
      assert (a + b)[i] == a[i];
    }
    forall i | 0 <= i < |b|
      ensures Contains(UnionAll(a + b), b[i])
    {
      assert (a + b)[|a| + i] == b[i];
    }
    UnionAllLeast(a, UnionAll(a + b));
    UnionAllLeast(b, UnionAll(a + b));
    UnionLeast(UnionAll(a), UnionAll(b), UnionAll(a + b));
    ContainsAntisymmetric(UnionAll(a + b), u);
  }

  /** The worked example of two unit cubes: their union spans (0,0,0)..(3,3,3) with area 54. */
  lemma TwoCubesExample()
    ensures Union(Box(Vec3(0.0, 0.0, 0.0), Vec3(1.0, 1.0, 1.0)), Box(Vec3(2.0, 2.0, 2.0), Vec3(3.0, 3.0, 3.0)))
            == Box(Vec3(0.0, 0.0, 0.0), Vec3(3.0, 3.0, 3.0))
    ensures SurfaceArea(Box(Vec3(0.0, 0.0, 0.0), Vec3(3.0, 3.0, 3.0))) == 54.0
  {
  }
}

=== FILE: optional.dfy ===
/** The optional value used wherever the source holds a pointer that may be null. */
module Optional {

  datatype Option<+T> = None | Some(value: T)
}

=== FILE: primitives.dfy ===
/**
  Scene objects as the BVH and the scene see them, and the intersection record
  a ray query returns. The geometry of an object (its own ray test, sampling,
  area formula) is not modelled: only the values it reports are.
 */
module Primitives {

  import opened Optional
  import opened Geometry

  /** An opaque handle to a surface material. */
  type Material = nat

  /** A renderable primitive: its bounding box corners, whether it emits light,
      and the area it reports. `id` tells apart objects with equal geometry. */
  datatype Object = Object(id: nat, pMin: Vec3, pMax: Vec3, emissive: bool, area: real)
  {
    function Bounds(): Bounds3 { Box(pMin, pMax) }

    function CentroidPoint(): Vec3 { Centroid(pMin, pMax) }
  }

  /** The result of a ray query. `NoHit` is the default-constructed record
      (`happened` false, distance at the largest double); a `Hit` carries the
      distance along the ray, the object hit and its material, which may be absent. */
  datatype Intersection = NoHit | Hit(distance: real, obj: Object, material: Option<Material>)

  /** `a.distance <= b.distance`, with a miss lying at the largest distance. */
  predicate NoFarther(a: Intersection, b: Intersection)
  {
    b.NoHit? || (a.Hit? && a.distance <= b.distance)
  }

  /** Two results are equally near: both miss, or both hit at the same distance. */
  predicate SameDistance(a: Intersection, b: Intersection)
  {
    (a.NoHit? && b.NoHit?) || (a.Hit? && b.Hit? && a.distance == b.distance)
  }

  /** The nearer of two results, keeping the first on a tie. */
  function Closer(a: Intersection, b: Intersection): (r: Intersection)
    ensures r == a || r == b
    ensures NoFarther(r, a) && NoFarther(r, b)
    ensures r == b ==> a == b || !NoFarther(a, b)
  {
    if NoFarther(a, b) then a else b
  }

  /** Picking the nearer result does not depend on how the picks are grouped. */
  lemma CloserAssociates(a: Intersection, b: Intersection, c: Intersection)
    ensures Closer(Closer(a, b), c) == Closer(a, Closer(b, c))
  {
  }

  /** The nearest of a sequence of results, the earliest on a tie; `NoHit` for none. */
  function Nearest(hs: seq<Intersection>): Intersection
  {
    if |hs| == 0 then NoHit else Closer(hs[0], Nearest(hs[1..]))
  }

  /** `h` is the nearest element of `hs` and no earlier element is as near:
      a reference statement of the first-minimum search, independent of `Nearest`. */
  ghost predicate IsFirstNearest(h: Intersection, hs: seq<Intersection>)
  {
    if h.NoHit? then forall i :: 0 <= i < |hs| ==> hs[i].NoHit?
    else exists k :: 0 <= k < |hs| && hs[k] == h
                     && (forall i :: 0 <= i < |hs| ==> NoFarther(h, hs[i]))
                     && (forall i :: 0 <= i < k ==> !NoFarther(hs[i], h))
  }

  /** `Nearest` returns the first element at the minimum distance, and misses
      exactly when every element misses. */
  lemma {:induction false} NearestIsFirstMinimum(hs: seq<Intersection>)
    ensures IsFirstNearest(Nearest(hs), hs)
    ensures Nearest(hs).NoHit? <==> forall i :: 0 <= i < |hs| ==> hs[i].NoHit?
  {
    if |hs| > 0 {
      var rest := hs[1..];
      NearestIsFirstMinimum(rest);
      var n := Nearest(rest);
      assert forall i :: 0 <= i < |rest| ==> rest[i] == hs[i + 1];
      if NoFarther(hs[0], n) {
        assert Nearest(hs) == hs[0];
        if hs[0].Hit? {
          forall i | 0 <= i < |hs|
            ensures NoFarther(hs[0], hs[i])
          {
            if i > 0 {
              if n.Hit? {
                var k :| 0 <= k < |rest| && rest[k] == n && (forall j :: 0 <= j < |rest| ==> NoFarther(n, rest[j]));
                assert NoFarther(n, rest[i - 1]);
              } else {
                assert rest[i - 1].NoHit?;
              }
            }
          }
          assert IsFirstNearest(hs[0], hs) by {
            assert hs[0] == hs[0];
          }
        } else {
          assert n.NoHit?;
        }
      } else {
        assert Nearest(hs) == n;
        assert n.Hit?;
        var k :| 0 <= k < |rest| && rest[k] == n
                 && (forall i :: 0 <= i < |rest| ==> NoFarther(n, rest[i]))
                 && (forall i :: 0 <= i < k ==> !NoFarther(rest[i], n));
        assert hs[k + 1] == n;
        forall i | 0 <= i < |hs|
          ensures NoFarther(n, hs[i])
        {
          if i > 0 {
            assert NoFarther(n, rest[i - 1]);
          }
        }
        forall i | 0 <= i < k + 1
          ensures !NoFarther(hs[i], n)
        {
          if i > 0 {
            assert !NoFarther(rest[i - 1], n);
          }
        }
      }
    }
  }

  /** The nearest result of a concatenation is the nearer of the two parts' nearest
      results, the first part winning a tie. */
  lemma {:induction false} NearestAppend(a: seq<Intersection>, b: seq<Intersection>)
    ensures Nearest(a + b) == Closer(Nearest(a), Nearest(b))
  {
    if |a| == 0 {
      assert a + b == b;
    } else {
      assert (a + b)[1..] == a[1..] + b;
      NearestAppend(a[1..], b);
      CloserAssociates(a[0], Nearest(a[1..]), Nearest(b));
    }
  }

  /** Two sequences holding the same results (in any order, any number of times)
      have equally near nearest results: reordering may change which of several
      equally near hits is returned, but not the distance. */
  lemma NearestSameElements(a: seq<Intersection>, b: seq<Intersection>)
    requires forall x :: x in a <==> x in b
    ensures SameDistance(Nearest(a), Nearest(b))
  {
    NearestIsFirstMinimum(a);
    NearestIsFirstMinimum(b);
    var na, nb := Nearest(a), Nearest(b);
    if na.Hit? {
      var ka :| 0 <= ka < |a| && a[ka] == na;
      assert na in b;
    }
    if nb.Hit? {
      var kb :| 0 <= kb < |b| && b[kb] == nb;
      assert nb in a;
    }
  }

  /** The results of querying each object in turn. */
  function HitsOf(objs: seq<Object>, hit: Object -> Intersection): (hs: seq<Intersection>)
    ensures |hs| == |objs|
    ensures forall i :: 0 <= i < |objs| ==> hs[i] == hit(objs[i])
  {
    seq(|objs|, i requires 0 <= i < |objs| => hit(objs[i]))
  }

  lemma HitsOfAppend(a: seq<Object>, b: seq<Object>, hit: Object -> Intersection)
    ensures HitsOf(a + b, hit) == HitsOf(a, hit) + HitsOf(b, hit)
  {
  }

  /** Querying two sequences that hold the same objects gives two sequences that
      hold the same results. */
  lemma HitsOfSameElements(a: seq<Object>, b: seq<Object>, hit: Object -> Intersection)
    requires forall o :: o in a <==> o in b
    ensures forall h :: h in HitsOf(a, hit) <==> h in HitsOf(b, hit)
  {
    var ha, hb := HitsOf(a, hit), HitsOf(b, hit);
    forall h | h in ha ensures h in hb {
      var i :| 0 <= i < |ha| && ha[i] == h;
      assert a[i] in b;
      var j :| 0 <= j < |b| && b[j] == a[i];
      assert hb[j] == h;
    }
    forall h | h in hb ensures h in ha {
      var i :| 0 <= i < |hb| && hb[i] == h;
      assert b[i] in a;
      var j :| 0 <= j < |a| && a[j] == b[i];
      assert ha[j] == h;
    }
  }
}

=== FILE: scene_light.dfy ===
/**
  Area-weighted light selection: the scene sums the areas of its emissive
  objects, scales a uniform draw by that total, and asks the first emissive
  object whose running area sum reaches the scaled draw for a sample point.
 */
module SceneLight {

  import opened Optional
  import opened Primitives

  /** The area an object contributes to the emissive total. */
  function EmitContribution(o: Object): real
  {
    if o.emissive then o.area else 0.0
  }

  /** The total area of the emissive objects, summed left to right. */
  function EmitArea(objs: seq<Object>): real
  {
    if |objs| == 0 then 0.0 else EmitArea(objs[..|objs| - 1]) + EmitContribution(objs[|objs| - 1])
  }

  /** The emissive total is non-negative when every area is, and zero when no
      object is emissive. */
  lemma {:induction false} EmitAreaBounds(objs: seq<Object>)
    ensures NonNegativeAreas(objs) ==> EmitArea(objs) >= 0.0
    ensures (forall i :: 0 <= i < |objs| ==> !objs[i].emissive) ==> EmitArea(objs) == 0.0
  {
    if |objs| > 0 {
      var init := objs[..|objs| - 1];
      assert forall i :: 0 <= i < |init| ==> init[i] == objs[i];
      EmitAreaBounds(init);
    }
  }

  /** The emissive total of a concatenation is the sum of the parts' totals, so
      it does not depend on where the summation is split. */
  lemma {:induction false} EmitAreaAppend(a: seq<Object>, b: seq<Object>)
    ensures EmitArea(a + b) == EmitArea(a) + EmitArea(b)
    decreases |b|
  {
    if |b| > 0 {
      var b' := b[..|b| - 1];
      assert (a + b)[..|a + b| - 1] == a + b';
      EmitAreaAppend(a, b');
    } else {
      assert a + b == a;
    }
  }

  /** The uniform draw scaled by the total emissive area. */
  function Draw(objs: seq<Object>, u: real): real
  {
    u * EmitArea(objs)
  }

  /** Object `k` is emissive and the running emissive area up to and including it reaches `p`. */
  ghost predicate Reaches(objs: seq<Object>, p: real, k: int)
  {
    0 <= k < |objs| && objs[k].emissive && p <= EmitArea(objs[..k + 1])
  }

  /** Object `k` is the first object that reaches `p`. */
  ghost predicate FirstReaching(objs: seq<Object>, p: real, k: int)
  {
    Reaches(objs, p, k) && forall j :: 0 <= j < k ==> !Reaches(objs, p, j)
  }

  ghost predicate NonNegativeAreas(objs: seq<Object>)
  {
    forall i :: 0 <= i < |objs| ==> objs[i].area >= 0.0
  }

  /** Samples a light. `u` is the uniform draw in [0, 1); `pos` and `pdf` are the
      caller's output slots, returned unchanged when no object is chosen;
      `sample` is an object's own surface sampler. `chosen` tells which
      object's sampler was asked. */
  method SampleLight(objs: seq<Object>, u: real, pos: Intersection, pdf: real,
                     sample: Object -> (Intersection, real))
    returns (pos': Intersection, pdf': real, chosen: Option<nat>)
    ensures chosen.Some? ==> chosen.value < |objs| && objs[chosen.value].emissive
    ensures chosen.Some? ==> (pos', pdf') == sample(objs[chosen.value])
    ensures chosen.Some? ==> FirstReaching(objs, Draw(objs, u), chosen.value)
    ensures chosen.None? ==> pos' == pos && pdf' == pdf
    ensures chosen.None? ==> forall k :: 0 <= k < |objs| ==> !Reaches(objs, Draw(objs, u), k)
  {
    var total := 0.0;
    var k := 0;
    while k < |objs|
      invariant k <= |objs|
      invariant total == EmitArea(objs[..k])
    {
      assert objs[..k + 1][..k] == objs[..k];
      if objs[k].emissive {
        total := total + objs[k].area;
      }
      k := k + 1;
    }
    assert objs[..|objs|] == objs;
    var p := u * total;
    assert p == Draw(objs, u);
    var sum := 0.0;
    pos', pdf', chosen := pos, pdf, None;
    k := 0;
    while k < |objs|
      invariant k <= |objs|
      invariant sum == EmitArea(objs[..k])
      invariant forall j :: 0 <= j < k ==> !Reaches(objs, p, j)
    {
      assert objs[..k + 1][..k] == objs[..k];
      if objs[k].emissive {
        sum := sum + objs[k].area;
        if p <= sum {
          var s := sample(objs[k]);
          pos', pdf', chosen := s.0, s.1, Some(k);
          return;
        }
      }
      k := k + 1;
    }
  }

  /** Without emissive objects the prefix sums stay at zero. */
  lemma {:induction false} PrefixFlat(objs: seq<Object>, a: nat, b: nat)
    requires a <= b <= |objs|
    requires forall j :: a <= j < b ==> !objs[j].emissive
    ensures EmitArea(objs[..a]) == EmitArea(objs[..b])
    decreases b - a
  {
    if a < b {
      PrefixFlat(objs, a, b - 1);
      assert objs[..b][..b - 1] == objs[..b - 1];
    }
  }

  /** With non-negative areas the running sum never decreases. */
  lemma {:induction false} PrefixMonotone(objs: seq<Object>, a: nat, b: nat)
    requires NonNegativeAreas(objs)
    requires a <= b <= |objs|
    ensures EmitArea(objs[..a]) <= EmitArea(objs[..b])
    decreases b - a
  {
    if a < b {
      PrefixMonotone(objs, a, b - 1);
      assert objs[..b][..b - 1] == objs[..b - 1];
    }
  }

  /** If some object emits and `0 <= u <= 1`, the scaled draw is reached: the
      selection loop always picks an object. */
  lemma SomeEmitterReached(objs: seq<Object>, u: real)
    requires NonNegativeAreas(objs)
    requires 0.0 <= u <= 1.0
    requires exists i :: 0 <= i < |objs| && objs[i].emissive
    ensures exists k :: Reaches(objs, Draw(objs, u), k)
  {
    var last := LastEmitter(objs);
    TotalAtLastEmitter(objs, last);
    DrawWithinTotal(objs, u);
    assert Reaches(objs, Draw(objs, u), last);
  }

  /** Past the last emitter the running sum stays put, so it already equals the total there. */
  lemma TotalAtLastEmitter(objs: seq<Object>, last: nat)
    requires last < |objs|
    requires forall j :: last < j < |objs| ==> !objs[j].emissive
    ensures EmitArea(objs[..last + 1]) == EmitArea(objs)
  {
    PrefixFlat(objs, last + 1, |objs|);
    assert objs[..|objs|] == objs;
  }

  /** A draw in [0, 1] scaled by the emissive total does not exceed the total. */
  lemma DrawWithinTotal(objs: seq<Object>, u: real)
    requires NonNegativeAreas(objs)
    requires 0.0 <= u <= 1.0
    ensures Draw(objs, u) <= EmitArea(objs)
  {
    EmitAreaBounds(objs);
    ScaledBelow(u, EmitArea(objs));
  }

  /** The index of the last emissive object. */
  lemma {:induction false} LastEmitter(objs: seq<Object>) returns (last: nat)
    requires exists i :: 0 <= i < |objs| && objs[i].emissive
    ensures last < |objs| && objs[last].emissive
    ensures forall j :: last < j < |objs| ==> !objs[j].emissive
  {
    if objs[|objs| - 1].emissive {
      last := |objs| - 1;
    } else {
      var init := objs[..|objs| - 1];
      var i :| 0 <= i < |objs| && objs[i].emissive;
      assert init[i] == objs[i];
      last := LastEmitter(init);
      assert forall j :: last < j < |init| ==> init[j] == objs[j];
    }
  }

  /** A draw in [0, 1] scales a non-negative total to at most that total. */
  lemma ScaledBelow(u: real, total: real)
    requires 0.0 <= u <= 1.0 && 0.0 <= total
    ensures u * total <= total
  {
    assert total - u * total == (1.0 - u) * total;
  }

  /** The draw values that select object `k` form the interval from the running
      sum before `k` (exclusive, or zero inclusive when no emitter precedes `k`)
      up to the running sum including `k`: an interval as long as `k`'s area, so
      objects are chosen in proportion to their area. */
  lemma SelectionInterval(objs: seq<Object>, p: real, k: nat)
    requires NonNegativeAreas(objs)
    requires k < |objs|
    ensures FirstReaching(objs, p, k) <==>
      && objs[k].emissive
      && p <= EmitArea(objs[..k]) + objs[k].area
      && (EmitArea(objs[..k]) < p || forall j :: 0 <= j < k ==> !objs[j].emissive)
  {
    assert objs[..k + 1][..k] == objs[..k];
    assert EmitArea(objs[..k + 1]) == EmitArea(objs[..k]) + EmitContribution(objs[k]);
    if FirstReaching(objs, p, k) && exists j :: 0 <= j < k && objs[j].emissive {
      var before := objs[..k];
      assert forall i :: 0 <= i < k ==> before[i] == objs[i];
      var j := LastEmitter(before);
      PrefixFlat(objs, j + 1, k);
      assert !Reaches(objs, p, j);
    }
    if && objs[k].emissive
       && p <= EmitArea(objs[..k]) + objs[k].area
       && (EmitArea(objs[..k]) < p || forall j :: 0 <= j < k ==> !objs[j].emissive)
    {
      forall j | 0 <= j < k
        ensures !Reaches(objs, p, j)
      {
        if objs[j].emissive {
          PrefixMonotone(objs, j + 1, k);
        }
      }
    }
  }
}

=== FILE: scene_shading.dfy ===
/**
  The control skeleton of the path tracer and the scene's BVH setup. The
  radiance arithmetic (BRDF evaluation, cosines, divisions by pdfs) is not
  modelled: an estimate records which terms the integrator adds, and the
  random draws and the intersections met along the walk are inputs.
 */
module SceneShading {

  import opened Optional
  import opened Geometry
  import opened Primitives
  import opened BvhSplit
  import opened BvhBuild
  import opened BvhTraversal
  import opened SceneTrace

  /** Continuation probability of the Russian roulette. */
  const RussianRoulette: real := 0.8

  /** How much nearer than the sampled light point a shadow-ray hit must be to block it. */
  const ShadowTolerance: real := 0.1

  /** The next-event sample at a shading point: the distance to the sampled point
      on a light (its square is the squared length of the unnormalised direction)
      and what the shadow ray towards it hits first. */
  datatype LightSample = LightSample(distance: real, blocker: Intersection)

  /** One step of the walk: what the ray hits, the light sample taken there, the
      roulette draw, the squared length of the sampled bounce direction, and the
      material's pdf for that direction. */
  datatype Vertex = Vertex(isect: Intersection, light: LightSample, ksi: real, wiSqr: real, pdf: real)

  /** What a `castRay` call adds up: nothing, or the hit surface's emission plus
      the direct term when `direct` holds plus the indirect term built on the
      nested estimate when there is one. */
  datatype Estimate = Black | Shaded(surface: Object, material: Material, direct: bool, indirect: Option<Estimate>)

  /** The direct term is computed: the light point is not degenerate-close and
      no scene hit lies nearer than the light (less the tolerance). A miss lies at
      the largest double distance, so it never blocks. */
  predicate DirectLit(l: LightSample, eps: real)
  {
    !(l.distance * l.distance < eps) && !(l.blocker.Hit? && l.blocker.distance < l.distance - ShadowTolerance)
  }

  /** The path-tracing recursion over a walk. `path[0]` is what the camera or
      bounce ray meets; when the indirect term is taken, the bounce ray's hit
      is `path[1].isect` (a walk that ends there means the bounce ray missed)
      and the nested call continues on `path[1..]`. `eps` is the shared
      numeric tolerance. */
  function CastRay(path: seq<Vertex>, eps: real): (e: Estimate)
    decreases |path|
    ensures e.Black? <==> |path| == 0 || path[0].isect.NoHit? || path[0].isect.material.None?
    ensures e.Shaded? ==> e.surface == path[0].isect.obj && Some(e.material) == path[0].isect.material
    ensures e.Shaded? ==> (e.direct <==> DirectLit(path[0].light, eps))
    ensures e.Shaded? && e.indirect.Some? ==>
              && |path| > 1 && path[0].ksi <= RussianRoulette && !(path[0].wiSqr < eps)
              && path[1].isect.Hit? && !path[1].isect.obj.emissive && path[0].pdf > eps
              && e.indirect.value == CastRay(path[1..], eps)
  {
    if |path| == 0 || path[0].isect.NoHit? || path[0].isect.material.None? then Black
    else
      var v := path[0];
      var bounce := if |path| > 1 then path[1].isect else NoHit;
      var indirect :=
        if v.ksi > RussianRoulette then None
        else if v.wiSqr < eps then None
        else if bounce.Hit? && !bounce.obj.emissive && v.pdf > eps then Some(CastRay(path[1..], eps))
        else None;
      Shaded(v.isect.obj, v.isect.material.value, DirectLit(v.light, eps), indirect)
  }

  /** `castRay` returns zero exactly when the ray hits nothing or hits a surface
      without material. */
  lemma CastRayBlack(path: seq<Vertex>, eps: real)
    ensures CastRay(path, eps).Black? <==> |path| == 0 || path[0].isect.NoHit? || path[0].isect.material.None?
    ensures CastRay(path, eps).Shaded? ==> CastRay(path, eps).surface == path[0].isect.obj
  {
  }

  /** The indirect term is taken only when the roulette survives, the sampled
      direction is not degenerate, the bounce hits a non-emissive surface and
      the pdf exceeds the tolerance; the direct term only when the light is
      neither degenerate-close nor occluded. */
  lemma CastRayGuards(path: seq<Vertex>, eps: real)
    requires CastRay(path, eps).Shaded?
    ensures CastRay(path, eps).indirect.Some? <==>
              && path[0].ksi <= RussianRoulette && path[0].wiSqr >= eps
              && |path| > 1 && path[1].isect.Hit? && !path[1].isect.obj.emissive && path[0].pdf > eps
    ensures path[0].ksi > RussianRoulette ==> CastRay(path, eps).indirect.None?
    ensures path[0].pdf <= eps ==> CastRay(path, eps).indirect.None?
    ensures CastRay(path, eps).direct <==> DirectLit(path[0].light, eps)
    ensures (path[0].light.blocker.Hit? && path[0].light.blocker.distance < path[0].light.distance - ShadowTolerance)
              ==> !CastRay(path, eps).direct
  {
  }

  /** Number of `castRay` levels that produced a surface. */
  function Depth(e: Estimate): nat
  {
    match e
    case Black => 0
    case Shaded(_, _, _, indirect) => 1 + (if indirect.Some? then Depth(indirect.value) else 0)
  }

  /** Every nested estimate below the top level is of a non-emissive surface: the
      indirect term never re-counts light already found by next-event estimation. */
  ghost predicate BouncesNonEmissive(e: Estimate)
  {
    e.Shaded? && e.indirect.Some? ==>
      && (e.indirect.value.Shaded? ==> !e.indirect.value.surface.emissive)
      && BouncesNonEmissive(e.indirect.value)
  }

  /** The walk went on past step `k`: the roulette draw there survived and the
      bounce met a non-emissive surface. */
  predicate Continued(path: seq<Vertex>, k: nat)
  {
    k + 1 < |path| && path[k].ksi <= RussianRoulette && path[k + 1].isect.Hit? && !path[k + 1].isect.obj.emissive
  }

  /** The recursion consumes one step of the walk per level, so it ends within
      the walk, and it descends past step `k` only when the roulette draw there
      survived and the bounce met a non-emissive surface. */
  lemma {:induction false} WalkBounded(path: seq<Vertex>, eps: real)
    ensures Depth(CastRay(path, eps)) <= |path|
    ensures forall k :: 0 <= k < Depth(CastRay(path, eps)) - 1 ==> Continued(path, k)
    ensures BouncesNonEmissive(CastRay(path, eps))
    decreases |path|
  {
    var e := CastRay(path, eps);
    if e.Shaded? && e.indirect.Some? {
      WalkBounded(path[1..], eps);
      assert e.indirect.value == CastRay(path[1..], eps);
      CastRayBlack(path[1..], eps);
      forall k | 0 <= k < Depth(e) - 1
        ensures Continued(path, k)
      {
        if k > 0 {
          assert Continued(path[1..], k - 1);
          assert path[1..][k - 1] == path[k];
          assert path[1..][k] == path[k + 1];
        }
      }
    }
  }

  /** The scene's setup: a BVH with one primitive per leaf and the median split. */
  function BuildBvh(objects: seq<Object>): (a: Accel)
    requires |objects| < U32
    ensures a.maxPrimsInNode == 1 && a.splitMethod == Naive
    ensures a.primitives == objects
    ensures a.root.Null? <==> |objects| == 0
  {
    NewAccel(objects, 1, Naive)
  }

  /** The scene's ray query agrees with a linear scan over its objects, and the
      tree it queries is balanced. */
  lemma SceneIntersectMatchesScan(objects: seq<Object>, boxHit: Bounds3 -> bool, hit: Object -> Intersection, h: nat)
    requires |objects| < U32 && Conservative(boxHit, hit)
    requires |objects| <= Pow2(h)
    ensures SameDistance(Intersect(BuildBvh(objects), boxHit, hit), Nearest(HitsOf(objects, hit)))
    ensures Height(BuildBvh(objects).root) <= h + 1
  {
    BvhAgreesWithLinearScan(objects, 1, Naive, boxHit, hit);
    MedianBuildBalanced(objects, h);
  }

  /** The brute-force object scan, started beyond every hit, finds a hit
      exactly when the scene's BVH query does, at the same distance, provided
      each object's own query agrees with the intersection routine the BVH
      calls at its leaves. */
  method TraceAgreesWithBvh(objects: seq<Object>, boxHit: Bounds3 -> bool, hit: Object -> Intersection,
                            probe: Object -> Probe, limit: real)
    returns (found: bool, tNear: real, index: nat, hitObject: Option<Object>)
    requires |objects| < U32 && Conservative(boxHit, hit)
    requires ProbeAgrees(objects, probe, hit)
    requires forall i :: 0 <= i < |objects| && hit(objects[i]).Hit? ==> hit(objects[i]).distance < limit
    ensures found <==> Intersect(BuildBvh(objects), boxHit, hit).Hit?
    ensures found ==> tNear == Intersect(BuildBvh(objects), boxHit, hit).distance
    ensures found ==> hitObject.Some? && hitObject.value in objects
                      && hit(hitObject.value).Hit? && hit(hitObject.value).distance == tNear
                      && index == probe(hitObject.value).index
  {
    found, tNear, index, hitObject := Trace(objects, probe, limit, 0);
    ghost var hs := HitsOf(objects, hit);
    BvhAgreesWithLinearScan(objects, 1, Naive, boxHit, hit);
    NearestIsFirstMinimum(hs);
    ghost var r := Intersect(BuildBvh(objects), boxHit, hit);
    ghost var n := Nearest(hs);
    assert SameDistance(r, n);
    forall i | 0 <= i < |objects|
      ensures Qualifies(objects, probe, limit, i) <==> hit(objects[i]).Hit?
    {
    }
    if found {
      ghost var k :| && Qualifies(objects, probe, limit, k)
               && hitObject == Some(objects[k])
               && tNear == probe(objects[k]).tNear
               && index == probe(objects[k]).index
               && (forall j :: Qualifies(objects, probe, limit, j) ==> tNear <= probe(objects[j]).tNear);
      assert hs[k] == hit(objects[k]);
      ghost var m :| 0 <= m < |hs| && hs[m] == n && (forall i :: 0 <= i < |hs| ==> NoFarther(n, hs[i]));
      assert Qualifies(objects, probe, limit, m);
      assert NoFarther(n, hs[k]);
    } else {
      assert forall i :: 0 <= i < |hs| ==> hs[i].NoHit?;
    }
  }
}

=== FILE: scene_trace.dfy ===
/**
  The scene's brute-force nearest-hit scan over its object list, written
  against the older per-object query that reports a hit flag, a distance and
  a sub-primitive index.
 */
module SceneTrace {

  import opened Optional
  import opened Primitives

  /** What one object's own ray query reports: whether it was hit, at what
      distance, and which of its sub-primitives (a mesh face, say) was hit. */
  datatype Probe = Probe(hit: bool, tNear: real, index: nat)

  /** The per-object query derived from an intersection routine: a hit at the
      intersection's distance, sub-primitive 0. */
  function ProbeOf(hit: Object -> Intersection): (probe: Object -> Probe)
    ensures forall o :: probe(o).hit <==> hit(o).Hit?
    ensures forall o :: hit(o).Hit? ==> probe(o).tNear == hit(o).distance
  {
    o => if hit(o).Hit? then Probe(true, hit(o).distance, 0) else Probe(false, 0.0, 0)
  }

  /** On every object of `objs` the per-object query reports a hit exactly when
      the intersection routine `hit` does, and at the same distance. */
  ghost predicate ProbeAgrees(objs: seq<Object>, probe: Object -> Probe, hit: Object -> Intersection)
  {
    forall i :: 0 <= i < |objs| ==>
      && (probe(objs[i]).hit <==> hit(objs[i]).Hit?)
      && (hit(objs[i]).Hit? ==> probe(objs[i]).tNear == hit(objs[i]).distance)
  }

  /** The query derived from an intersection routine agrees with it on any list. */
  lemma ProbeOfAgrees(objs: seq<Object>, hit: Object -> Intersection)
    ensures ProbeAgrees(objs, ProbeOf(hit), hit)
  {
  }

  /** Object `k` reports a hit nearer than `limit`. */
  ghost predicate Qualifies(objs: seq<Object>, probe: Object -> Probe, limit: real, k: int)
  {
    0 <= k < |objs| && probe(objs[k]).hit && probe(objs[k]).tNear < limit
  }

  /** Scans every object, keeping the nearest hit closer than the incoming
      `tNear0`. A later object replaces the current one only when strictly
      nearer, so the first object at the minimum distance wins; `index` and the
      distance move only with such a replacement. */
  method Trace(objs: seq<Object>, probe: Object -> Probe, tNear0: real, index0: nat)
    returns (found: bool, tNear: real, index: nat, hitObject: Option<Object>)
    ensures found <==> hitObject.Some?
    ensures found <==> exists k :: Qualifies(objs, probe, tNear0, k)
    ensures tNear <= tNear0
    ensures !found ==> tNear == tNear0 && index == index0
    ensures found ==> exists k :: && Qualifies(objs, probe, tNear0, k)
                                  && hitObject == Some(objs[k])
                                  && tNear == probe(objs[k]).tNear
                                  && index == probe(objs[k]).index
                                  && (forall j :: Qualifies(objs, probe, tNear0, j) ==> tNear <= probe(objs[j]).tNear)
                                  && (forall j :: 0 <= j < k && Qualifies(objs, probe, tNear0, j) ==> tNear < probe(objs[j]).tNear)
  {
    tNear, index, hitObject := tNear0, index0, None;
    ghost var best := -1;
    var k := 0;
    while k < |objs|
      invariant k <= |objs|
      invariant -1 <= best < k
      invariant tNear <= tNear0
      invariant best == -1 ==> tNear == tNear0 && index == index0 && hitObject.None?
      invariant best == -1 ==> forall j :: 0 <= j < k ==> !Qualifies(objs, probe, tNear0, j)
      invariant best >= 0 ==> && Qualifies(objs, probe, tNear0, best)
                              && hitObject == Some(objs[best])
                              && tNear == probe(objs[best]).tNear
                              && index == probe(objs[best]).index
      invariant best >= 0 ==> forall j :: 0 <= j < k && Qualifies(objs, probe, tNear0, j) ==> tNear <= probe(objs[j]).tNear
      invariant best >= 0 ==> forall j :: 0 <= j < best && Qualifies(objs, probe, tNear0, j) ==> tNear < probe(objs[j]).tNear
    {
      var r := probe(objs[k]);
      if r.hit && r.tNear < tNear {
        hitObject := Some(objs[k]);
        tNear := r.tNear;
        index := r.index;
        best := k;
      }
      k := k + 1;
    }
    found := hitObject.Some?;
  }
}
